=== FILE: README.md ===
# curling-week-bot core in Dafny

This is a model of the service layer of a Telegram bot for a curling week.
Users register through a `/start` deep link carrying a token. They then
prove that they joined the required channels, and end in the CONFIRMED
state. Admins draft announcements from their own messages. A draft is
broadcast to the confirmed users with bounded retries, per-recipient
accounting, progress logs and pacing. Admins also edit static pages. The
model covers:

- the configuration parser for `ADMIN_IDS`;
- the admin checks and the deduplication of admin ids;
- start-token extraction, registration, the subscription check and the subscription prompt;
- the user, post and page stores;
- drafting and rendering posts;
- the broadcast loop and its retry;
- the notification throttle.

Each source file becomes one module. Database tables are values:

- users and pages are maps keyed by Telegram id and page key;
- posts are a sequence whose row `i` has id `i + 1`.

Every operation is a pure function from the old state to the new one. Where
the source reads a clock, the model takes a `now` parameter. Where it calls
Telegram, the model takes an oracle parameter: `Transport` for sends,
`MemberOracle` for `get_chat_member`, and `Decoder` for `decode_payload`.
The broadcast records its send calls, back-off sleeps, progress logs and
pacing sleeps in an event trace instead of performing them. Python's
`str.strip`, `str.split`, `str.join`, `str(int)` and decimal `int(str)`
are in the `Text` module.

## Model

| member | source | states |
|---|---|---|
| Config.SplitAdminIds | bot/config.py:36-49 | `None` and `""` give the empty list. An int gives a one-element list. A list converts element-wise. Any other string is split on commas, each piece stripped, blank pieces skipped, and each remaining piece parsed |
| Config.ConvertItems | bot/config.py:45 | Succeeds iff every item converts. On success the result has the same length and holds each item's value at the same index. On failure some string item does not parse, and the error names it |
| Config.CsvRoundTrip | bot/config.py:48-49 | A non-empty list of ids, written as comma-separated decimals, parses back to exactly that list |
| Config.CsvBlankIgnored | bot/config.py:49 | Inserting a blank piece anywhere among the comma-separated ids (as in `"1, ,2"`) leaves the parsed list unchanged |
| Config.NonNumberRejected | bot/config.py:49 | A comma-free piece holding an ASCII character that is neither whitespace, a digit, a sign nor `_`, placed anywhere among decimal ids (as in `"1,abc,2"`), makes the whole value invalid |
| Config.CsvPiecesReject | bot/config.py:49 | If some non-blank piece does not parse once stripped, the list comprehension fails |
| Config.NonNumberPiece | bot/config.py:49 | A piece holding an ASCII character that is neither whitespace, a digit, a sign nor `_` is not skipped as blank, and its stripped form does not parse |
| Config.CsvPieces | bot/config.py:49 | The strip-and-skip pass keeps exactly the stripped pieces that are not empty, each as often as it occurs |
| Config.CsvPiecesKeepsAll | bot/config.py:49 | The strip-and-skip pass keeps every piece, stripped and in order, iff no piece is blank |
| Config.CsvPiecesSkipsBlank | bot/config.py:49 | A blank piece is dropped wherever it stands; the kept pieces are those of the value without it |
| Text.Strip | bot/services/pages.py:39-40 | `strip()` leaves no whitespace at either end, and is empty iff the input is all whitespace |
| Text.StripIdempotent | bot/utils/deep_link.py:16 | Stripping twice is stripping once |
| Text.Split | bot/config.py:49 | `split(",")` gives at least one piece and no piece holds the separator |
| Text.JoinSplit | bot/config.py:49 | Joining the pieces of a split with the separator gives back the string |
| Text.SplitJoin | bot/services/subscription_channels.py:32 | Splitting a join of separator-free pieces gives back the pieces |
| Text.JoinSeparators | bot/services/subscription_channels.py:32 | `"\n".join(pieces)` of a non-empty list of separator-free pieces holds exactly `len(pieces) - 1` separators; with `SplitJoin` this characterises `Join` |
| Text.IntToDecimal | bot/services/subscription_channels.py:31 | `str(n)` is the canonical decimal: digits only for `n >= 0`, a `-` followed by digits for `n < 0`, no plus sign, no leading zero (`0` only for zero), and no comma, whitespace or newline |
| Text.ParseIntShape | bot/config.py:45 | The modelled `int()` succeeds exactly on an optional sign followed by at least one ASCII digit; with `ParseIntOfDecimal` and `ParseRejects` this characterises `ParseInt` |
| Text.ParseIntOfDecimal | bot/config.py:45 | `int(str(n)) == n` for every integer |
| Text.ParseRejects | bot/config.py:45 | `int()` fails on any string holding an ASCII character that is neither whitespace, a digit, a sign nor the `_` separator |
| Text.StripKeeps | bot/config.py:49 | `strip()` never removes a non-whitespace character: it stays in the result, shifted left by the leading whitespace removed |
| Text.StripMiddle | bot/config.py:49 | `strip()` removes only whitespace at the two ends: the result is a contiguous middle of the input, with a blank prefix before it and a blank suffix after it |
| BotCommands.UniqueAdminIds | bot/utils/bot_commands.py:12-20 | The loop returns the reference first-occurrence list. It has no repeats, holds exactly the input's ids, and is no longer than the input |
| BotCommands.FirstOccurrencesOrdered | bot/utils/bot_commands.py:15-19 | The kept ids appear in the order of their first occurrences in the input |
| BotCommands.FirstOccurrencesOfDistinct | bot/utils/bot_commands.py:15-19 | A list without repeats is kept unchanged |
| BotCommands.FirstOccurrencesIdempotent | bot/utils/bot_commands.py:12-20 | Deduplicating twice is deduplicating once |
| Admin.IsAdminUserId | bot/utils/admin.py:4-7 | No id is never an admin. A present id is an admin iff it is listed |
| Admin.IsAdminEvent | bot/utils/admin.py:10-12 | An event without a sender is never an admin's. Otherwise it is an admin's iff the sender's id is in the settings' `admin_ids` |
| Admin.NoAdminsConfigured | bot/utils/admin.py:4-7 | With no admin ids configured, nobody is an admin |
| Admin.AdminsOfUniqueIds | bot/utils/admin.py:4-7 | The deduplicated id list grants admin to exactly the same users as the configured list |
| SubscriptionChannels.BuildPresentation | bot/services/subscription_channels.py:17-33 | One link per channel gives the base prompt with those links. Otherwise there are no links, and the text is the bare prompt when there are no channels or starts with the prompt otherwise |
| SubscriptionChannels.HasLinksIff | bot/services/subscription_channels.py:12-26 | The presentation has links iff the links are non-empty and as many as the channel ids |
| SubscriptionChannels.FallbackLines | bot/services/subscription_channels.py:31-33 | The fallback text splits on newlines into the prompt, a blank line, then one `Канал: <id>` line per channel in order |
| SubscriptionChannels.ChannelLineRoundTrip | bot/services/subscription_channels.py:31 | The id parses back from its `Канал: ` line |
| DeepLink.AfterFirstWord | bot/utils/deep_link.py:9-11 | `split(maxsplit=1)` has a second part iff the text has two words. That part is the rest of the text after the first word and the following whitespace |
| DeepLink.TokenFromRaw | bot/utils/deep_link.py:13-29 | No token, or a blank one, gives None. A stripped token with a dot is returned undecoded. Otherwise the decoding's stripped non-blank value is returned, a blank decoding gives None, and a decoder failure keeps the token. Any result is non-empty and trimmed |
| DeepLink.ExtractStartToken | bot/utils/deep_link.py:6-29 | Command arguments win. Without them the rest of a non-empty message text after its first word is used. Otherwise there is no token |
| DeepLink.ArgumentsWin | bot/utils/deep_link.py:7-8 | Given command arguments, the message text plays no part |
| DeepLink.DottedArgument | bot/utils/deep_link.py:20-21 | A trimmed token containing a dot comes back unchanged, never decoded |
| DeepLink.EncodedArgument | bot/utils/deep_link.py:23-29 | A dot-free token with a non-blank decoding yields that decoding, stripped |
| DeepLink.UndecodableArgument | bot/utils/deep_link.py:25-26 | A dot-free token the decoder rejects is kept as is |
| DeepLink.BlankArgument | bot/utils/deep_link.py:16-18 | Blank arguments give no token |
| DeepLink.StartTextExample | bot/utils/deep_link.py:8-21 | `/start a.b.c` without parsed arguments yields `a.b.c` |
| TokenVerifier.StubIsValid | bot/services/token_verifier.py:6-8 | `TEST` and every token starting `TEST_` are valid. Every valid token starts with `TEST` and has `_` after it if longer |
| TokenVerifier.GetTokenVerifier | bot/services/token_verifier.py:11-12 | The wired verifier accepts exactly `TEST` and the `TEST_` prefixed tokens |
| TokenVerifier.StubRejects | bot/services/token_verifier.py:8 | Lower case, `TESTX`, a strict prefix of `TEST` and the empty token are rejected; `TEST` and `TEST_42` are accepted |
| UserRepository.GetByTgId | bot/storage/user_repository.py:10-12 | A user is found iff one is stored under that id, and it is the stored user |
| UserRepository.Create | bot/storage/user_repository.py:14-23 | Adds exactly one user with the given id, username and status, and no page being edited. Nothing else changes |
| UserRepository.UpdateUsername | bot/storage/user_repository.py:25-30 | Only that user's username changes, and an equal username changes nothing |
| UserRepository.SetStatus | bot/storage/user_repository.py:32-37 | Only that user's status changes, and an equal status changes nothing |
| UserRepository.SetEditingPageKey | bot/storage/user_repository.py:39-44 | Only that user's page key changes |
| UserRepository.SetStatusIdempotent | bot/storage/user_repository.py:32-37 | Setting a status twice is setting it once |
| Registration.EnsureUser | bot/services/registration.py:90-101 | An unknown user is created with status NONE. A known user only gets the new username. No one else changes |
| Registration.HandleStart | bot/services/registration.py:34-88 | Reports the prior status. Without a token the user is reset to NONE. With a valid token NONE and TOKEN_VERIFIED become TOKEN_VERIFIED and later states stay. An invalid token changes no status. An unknown user is created with its id, the username, the resulting status and no page being edited. A known user keeps its editing key, and no other user changes |
| Registration.HandleStartIdempotent | bot/services/registration.py:34-88 | Repeating the same `/start` changes the store no further |
| Registration.StubStartFlow | bot/services/registration.py:42-75 | A new user with `TEST_1` becomes TOKEN_VERIFIED. A later tokenless `/start` drops even a confirmed user to NONE |
| SubscriptionChecker.ScanChannels | bot/services/subscription_checker.py:98-135 | All channels report membership iff every lookup is MEMBER, ADMINISTRATOR or CREATOR. Otherwise the loop stops at the first non-member, and all earlier channels were memberships |
| SubscriptionChecker.LookupsMade | bot/services/subscription_checker.py:99-135 | The loop makes at most one lookup per channel, and stops early only right after a non-membership |
| SubscriptionChecker.CheckSubscription | bot/services/subscription_checker.py:47-150 | No channels is an error that touches nothing. A check within 3 s of the last one is throttled. Otherwise `now` is recorded first. An ineligible user gets no lookup. A lookup error ends the check as eligible, with no membership answer, the error message and no status change. A channel the user is not in gives "not a member" with no message and no status change. Past the gate the answer is never "rate limited". An ineligible user is denied with no message. A member of every channel gets a "member" answer with no message, confirmed now iff not confirmed before, and a not-yet-confirmed user is confirmed. Other exceptions roll the user store back but keep the rate-limit entry |
| SubscriptionChecker.RateGateAfterCheck | bot/services/subscription_checker.py:59-70 | A check that got past the gate throttles every check of the same user in the next 3 s, whatever it answered or raised |
| SubscriptionChecker.ConfirmOnce | bot/services/subscription_checker.py:137-142 | A user confirmed by one check is never reported as confirmed again |
| SubscriptionChecker.IneligibleNeedsNoLookup | bot/services/subscription_checker.py:80-96 | A user not past token verification gets a non-eligible answer that no lookup influences |
| SubscriptionChecker.RejectedLookupReported | bot/services/subscription_checker.py:98-119 | A lookup error at any channel, after memberships in the channels before it, gives an eligible answer with no membership answer, the error message and unchanged users, whatever later channels say |
| SubscriptionChecker.NonMemberReported | bot/services/subscription_checker.py:98-135 | A channel the user is not in, after memberships in the channels before it, gives "not a member" with no message and unchanged users |
| SubscriptionChecker.ScanStopsAt | bot/services/subscription_checker.py:98-135 | The channel loop stops at the first channel whose lookup is not a membership, and reports that lookup |
| SubscriptionChecker.LeftSecondChannel | bot/services/subscription_checker.py:98-148 | A user who left the second of two channels is not a member. Both channels were asked, and the status stays |
| PageEditing.GetEditingKey | bot/services/page_editing.py:18-24 | An unknown user has no key. A known user has their stored key |
| PageEditing.StartEditing | bot/services/page_editing.py:26-34 | An unknown user is created with status NONE. The user's key becomes `key` and no one else changes |
| PageEditing.CancelEditing | bot/services/page_editing.py:36-42 | An unknown user stays absent. A known user's key is cleared and no one else changes |
| PageEditing.StartThenCancel | bot/services/page_editing.py:18-42 | After a start the key reads back. After a cancel it is gone. Another user's start or cancel leaves it alone |
| Pages.GetPage | bot/services/pages.py:33-43 | Content is absent iff the page is missing or blank. Present content is the stored content, unstripped |
| Pages.UpdatePage | bot/services/pages.py:45-55 | Upsert: the page under `key` gets the content and update time, other pages are unchanged, and the answer echoes the content |
| Pages.UpdateThenGet | bot/services/pages.py:33-55 | Reading a page right after writing it returns the written content, or nothing if it is blank |
| Models.NormalizeEntities | bot/services/post_service.py:41-51 | A stored entity list is absent or non-empty, and a non-empty list is kept as is |
| PostRepository.CreateDraft | bot/storage/post_repository.py:12-40 | Every earlier draft of the creator is canceled with `sent_at` stamped. Then one new draft row is appended carrying the given columns and the next id |
| PostRepository.Get | bot/storage/post_repository.py:42-44 | Finds the row with that id, or None iff no row has it |
| PostRepository.GetValid | bot/storage/post_repository.py:42-44 | With serial ids, id `k` is row `k - 1` and ids out of range are absent |
| PostRepository.MarkSent | bot/storage/post_repository.py:46-64 | The row with that id becomes sent with the time and both counts. All other rows are unchanged |
| PostRepository.MarkCanceled | bot/storage/post_repository.py:66-71 | The row with that id becomes canceled with `sent_at` stamped. All other rows are unchanged |
| PostRepository.MarkSentThenGet | bot/storage/post_repository.py:46-64 | Reading a post after `mark_sent` shows it sent with the given time and counts |
| PostRepository.CreateDraftKeepsSingleDraft | bot/storage/post_repository.py:24-40 | Creating a draft preserves "at most one draft per admin" |
| PostRepository.MarkSentKeepsSingleDraft | bot/storage/post_repository.py:46-64 | `mark_sent` preserves "at most one draft per admin" |
| PostRepository.MarkCanceledKeepsSingleDraft | bot/storage/post_repository.py:66-71 | `mark_canceled` preserves "at most one draft per admin" |
| PostRepository.SortNewestFirst | bot/storage/post_repository.py:75 | The ordering by `created_at` descending is a permutation of the table, newest first |
| PostRepository.ListRecent | bot/storage/post_repository.py:73-77 | Returns `min(limit, rows)` posts, newest first, drawn from the table. No post left out is newer than any returned |
| PostService.ClassifyMessage | bot/services/post_service.py:38-60 | Text wins over photo, and photo over document. Anything else is rejected. Each kind carries exactly its own columns, with an empty caption for `None` and the largest photo's file id |
| PostService.CreateDraftFromMessage | bot/services/post_service.py:37-75 | Fails iff the message is unsupported. Otherwise it stores the classified message's columns through `create_draft`: one new draft by that admin, which is the admin's only draft. The admin's earlier drafts are canceled and stamped, and every other row is untouched |
| PostService.RenderPost | bot/services/post_service.py:77-96 | A photo or document needs a non-empty file id, and then shows that file with the caption and its entities. Every other row renders as text, empty when it has none |
| PostService.RenderPostToChat | bot/services/post_service.py:98-127 | Sends exactly the rendered kind, to the given chat, with the given markup and the rendered content |
| PostService.DraftRenderRoundTrip | bot/services/post_service.py:37-96 | A draft made from a supported message, read back by id and rendered, shows the message's own content |
| Dedupe.Cleanup | bot/utils/dedupe.py:12-15 | Keeps exactly the entries younger than the TTL, with their times |
| Dedupe.ShouldNotify | bot/utils/dedupe.py:18-26 | Notify iff the key has no entry younger than the TTL. A notification records `now` for the key. A suppression keeps the key's old time. Expired entries of other keys are dropped |
| Dedupe.ShouldNotifyAlbum | bot/utils/dedupe.py:18-26 | The album rule of `ShouldNotify` on the album cache; the document cache is untouched |
| Dedupe.ShouldNotifyDocumentUpdate | bot/utils/dedupe.py:29-41 | The same rule on the document cache; the album cache is untouched |
| Dedupe.FirstCallNotifies | bot/utils/dedupe.py:22-26 | The first call for a key notifies and records `now` |
| Dedupe.WindowFromLastNotification | bot/utils/dedupe.py:23-25 | A suppressed call does not move the window. A third call at least a TTL after the first notification notifies again |
| Dedupe.CachesIndependent | bot/utils/dedupe.py:8-41 | Album and document notices never influence each other |
| Dedupe.DocumentNoticeDefaults | bot/utils/dedupe.py:6 | With the default 5 s window, notices at 100 s, 104 s and 105 s give notify, suppress, notify |
| Broadcast.RetryDelay | bot/services/broadcast.py:110-117 | A rate limit waits the larger of `retry_after` and the send delay. A network error waits the send delay, or 0.1 s when the delay is zero |
| Broadcast.SendWithRetry | bot/services/broadcast.py:100-117 | At most three calls. The last call decides the outcome: delivered iff it succeeded, escaping iff it was unclassified, failed with its cause otherwise. A retryable last failure happens only on the third attempt |
| Broadcast.RetryTrace | bot/services/broadcast.py:102-117 | The retry trace alternates one send call per attempt, in turn, with the back-off sleep after each retryable failure |
| Broadcast.NoRetryOnPermanentError | bot/services/broadcast.py:60-65 | Forbidden, not-found and bad-request errors fail after a single call |
| Broadcast.RetryOutcomes | bot/services/broadcast.py:106-116 | A rate limit then success is delivered after two calls with the right back-off. Three retryable errors fail after three calls |
| Broadcast.SendAll | bot/services/broadcast.py:56-80 | The loop equals the reference fold over the recipients' send reports. When nothing escapes, every recipient is counted exactly once |
| Broadcast.BroadcastPost | bot/services/broadcast.py:42-98 | A missing post and a non-draft post are errors. Otherwise, if an unclassified error escaped, nothing is committed. Else the post is marked sent with both counts, which add up to the number of recipients |
| Broadcast.RunAbortsIff | bot/services/broadcast.py:56-71 | The loop stops exactly when some recipient's error escapes |
| Broadcast.RunAccounting | bot/services/broadcast.py:57-71 | Until it stops, the success count is the number of delivered recipients, the failure count the number of the others, and they add up to the recipients seen |
| Broadcast.BroadcastSendsInOrder | bot/services/broadcast.py:56-58 | Send calls go one recipient at a time in list order, each attempt once. Each goes to the listed recipient at its position, renders the post, and is one of at most three attempts |
| Broadcast.RunLogsAndSleeps | bot/services/broadcast.py:72-80 | Every pacing sleep lasts `send_delay` and none happen unless it is positive. Every progress log names the post and the recipient total |
| Broadcast.RunPacing | bot/services/broadcast.py:79-80 | There is exactly one pacing sleep per recipient when `send_delay > 0`, and none otherwise |
| Broadcast.RunProgress | bot/services/broadcast.py:72-78 | A progress log for position `k` appears iff `k` is among the recipients seen, `batch_log_every > 0`, and `k` is a multiple of it |
| Broadcast.BlockedRecipientExample | bot/services/broadcast.py:56-71 | Three recipients, the second blocked: two successes, one failure |

## Left out

- Database sessions, transactions and flushes, logging, and `asyncio` scheduling are not modelled. Each operation is atomic. A propagated exception rolls the subscription check's user store back.
- The Telegram Bot API is modelled only through oracles. `Transport` gives the outcome of each send attempt, `MemberOracle` the result of `get_chat_member`, and `Decoder` stands for `decode_payload`.
- `time.monotonic()` and `datetime.utcnow()` are `real` parameters. `asyncio.sleep` becomes trace events.
- `UserRepository.list_confirmed_user_ids` is not part of this model. The broadcast takes the recipient list as a parameter.
- `get_required_channel_ids_for_check` and `RequiredChannel` are not part of this model. The subscription check takes the normalised channel id list as a parameter.
- `PageRepository` is not part of this model. A created page is `Page(key, content, now)`, and the page model's other columns are not modelled.
- `serialize_entities` / `deserialize_entities` are not part of this model. `Models.NormalizeEntities` only captures that an absent or empty list is stored as `None`. Entities are opaque values.
- `setup_bot_commands` is left out: it only calls `set_my_commands` and logs failures. Its `_unique_admin_ids` is modelled.
- The `TokenVerifier` base class is left out: it only raises `NotImplementedError`. Registration takes the verifier as a function.
- Config.SplitAdminIds: only the `None`, int, list and str shapes of the value are modelled. Other objects go through `str(value)` in the source. `True`/`False` count as ints in Python.
- Config.ConvertItems: list elements are modelled only as ints and strings. Python's `int(x)` also accepts floats, truncating toward zero (`int(1.9) == 1`, `int(-1.9) == -1`), bools and any object with `__int__` or `__index__`; these element kinds are not modelled.
- Config.ConvertItems and Text.ParseInt: Python's `int()` also accepts surrounding whitespace, underscores between digits and non-ASCII digits. The model parses only an optional sign followed by ASCII digits.
- PostRepository.ListRecent: `limit` is a `nat`. A negative SQL `LIMIT` is not modelled.
- Models.Post: `created_at` is a column value supplied at insertion. Database defaults and timezones are not modelled.
- Broadcast.SendWithRetry: the source's `float(exc.retry_after)` is modelled as a whole number of seconds.
- Broadcast.BroadcastPost: the `mark_sent` timestamp is the `now` parameter, and the returned pair is the `Completed` outcome's counts.
- Registration.StubStartFlow, DeepLink.StartTextExample, SubscriptionChecker.LeftSecondChannel, Dedupe.DocumentNoticeDefaults and Broadcast.BlockedRecipientExample are single scenarios. Each has a general lemma beside it.
- The process-wide dictionaries of the throttle and the rate gate are explicit state threaded through the calls. Concurrent handlers are not modelled.
- Draft kinds other than text, photo and document are not modelled, because the code rejects them. This covers video, animation, albums, extra documents and draft merging.

=== FILE: admin.dfy ===
/** The admin membership test (`bot/utils/admin.py`): a user is an admin
    when their Telegram id is listed in the configured `admin_ids`. */
module Admin {
  import opened Wrappers
  import BotCommands

  /** What `is_admin_event` reads from a message or callback query: the
      sender's id, absent when the update has no `from_user`. */
  datatype AdminEvent = AdminEvent(fromUserId: Option<int>)

  /** `is_admin_user_id`. */
  function IsAdminUserId(userId: Option<int>, adminIds: seq<int>): (r: bool)
    ensures userId.None? ==> !r
    ensures userId.Some? ==> (r <==> exists i :: 0 <= i < |adminIds| && adminIds[i] == userId.value)
  {
    userId.Some? && userId.value in adminIds
  }

  /** `is_admin_event`, against the settings' `admin_ids`. */
  function IsAdminEvent(event: AdminEvent, adminIds: seq<int>): (r: bool)
    ensures event.fromUserId.None? ==> !r
    ensures r ==> event.fromUserId.Some? && event.fromUserId.value in adminIds
    ensures event.fromUserId.Some? && event.fromUserId.value in adminIds ==> r
  {
    IsAdminUserId(event.fromUserId, adminIds)
  }

  /** With no admins configured nobody is an admin. */
  lemma NoAdminsConfigured(userId: Option<int>)
    ensures !IsAdminUserId(userId, [])
  {
  }

  /** The answer depends only on which ids are listed, so the deduplicated
      list that receives admin menus grants admin to the same users. */
  lemma AdminsOfUniqueIds(userId: Option<int>, adminIds: seq<int>)
    ensures IsAdminUserId(userId, BotCommands.FirstOccurrences(adminIds)) == IsAdminUserId(userId, adminIds)
  {
    BotCommands.FirstOccurrencesElements(adminIds);
  }
}

=== FILE: bot_commands.dfy ===
/** The admin-id deduplication behind the per-admin command menus
    (`bot/utils/bot_commands.py`): each id kept once, at its first
    occurrence, in input order. */
module BotCommands {

  /** No id occurs twice. */
  predicate Distinct(s: seq<int>) {
    forall i, j :: 0 <= i < j < |s| ==> s[i] != s[j]
  }

  /** Reference definition: the ids whose earlier prefix does not already
      hold them, in order. */
  function FirstOccurrences(ids: seq<int>): seq<int>
    decreases |ids|
  {
    if |ids| == 0 then []
    else
      var prefix := ids[..|ids| - 1];
      var last := ids[|ids| - 1];
      if last in prefix then FirstOccurrences(prefix) else FirstOccurrences(prefix) + [last]
  }

  /** The position of the first occurrence of `x`. */
  function FirstIndex(s: seq<int>, x: int): (k: nat)
    requires x in s
    ensures k < |s| && s[k] == x && x !in s[..k]
  {
    if s[0] == x then 0 else 1 + FirstIndex(s[1..], x)
  }

  /** `_unique_admin_ids`: one pass with a `seen` set. */
  method UniqueAdminIds(adminIds: seq<int>) returns (unique: seq<int>)
    ensures unique == FirstOccurrences(adminIds)
    ensures Distinct(unique)
    ensures forall x :: x in unique <==> x in adminIds
    ensures |unique| <= |adminIds|
  {
    unique := [];
    var seen: set<int> := {};
    var i := 0;
    while i < |adminIds|
      invariant 0 <= i <= |adminIds|
      invariant unique == FirstOccurrences(adminIds[..i])
      invariant forall x :: x in seen <==> x in adminIds[..i]
    {
      var adminId := adminIds[i];
      assert adminIds[..i + 1][..i] == adminIds[..i];
      if adminId in seen {
        i := i + 1;
        continue;
      }
      seen := seen + {adminId};
      unique := unique + [adminId];
      i := i + 1;
    }
    assert adminIds[..i] == adminIds;
    FirstOccurrencesDistinct(adminIds);
    FirstOccurrencesElements(adminIds);
    FirstOccurrencesShorter(adminIds);
  }

  /** The result never repeats an id. */
  lemma {:induction false} FirstOccurrencesDistinct(ids: seq<int>)
    ensures Distinct(FirstOccurrences(ids))
    decreases |ids|
  {
    if |ids| > 0 {
      var prefix := ids[..|ids| - 1];
      FirstOccurrencesDistinct(prefix);
      FirstOccurrencesElements(prefix);
    }
  }

  /** Exactly the ids of the input survive. */
  lemma {:induction false} FirstOccurrencesElements(ids: seq<int>)
    ensures forall x :: x in FirstOccurrences(ids) <==> x in ids
    decreases |ids|
  {
    if |ids| > 0 {
      var prefix := ids[..|ids| - 1];
      FirstOccurrencesElements(prefix);
      assert ids == prefix + [ids[|ids| - 1]];
    }
  }

  /** The result is never longer than the input. */
  lemma {:induction false} FirstOccurrencesShorter(ids: seq<int>)
    ensures |FirstOccurrences(ids)| <= |ids|
    decreases |ids|
  {
    if |ids| > 0 {
      FirstOccurrencesShorter(ids[..|ids| - 1]);
    }
  }

  /** A first occurrence in a prefix is the first occurrence in any extension. */
  lemma {:induction false} FirstIndexPrefix(s: seq<int>, t: seq<int>, x: int)
    requires x in s
    ensures x in s + t && FirstIndex(s + t, x) == FirstIndex(s, x)
    decreases |s|
  {
    if s[0] != x {
      assert (s + t)[1..] == s[1..] + t;
      FirstIndexPrefix(s[1..], t, x);
    }
  }

  /** The kept ids appear in the order of their first occurrences. */
  lemma {:induction false} FirstOccurrencesOrdered(ids: seq<int>)
    ensures forall x :: x in FirstOccurrences(ids) ==> x in ids
    ensures forall i, j :: 0 <= i < j < |FirstOccurrences(ids)| ==>
      FirstIndex(ids, FirstOccurrences(ids)[i]) < FirstIndex(ids, FirstOccurrences(ids)[j])
    decreases |ids|
  {
    FirstOccurrencesElements(ids);
    if |ids| > 0 {
      var prefix := ids[..|ids| - 1];
      var last := ids[|ids| - 1];
      var p := FirstOccurrences(prefix);
      var u := FirstOccurrences(ids);
      FirstOccurrencesOrdered(prefix);
      assert ids == prefix + [last];
      forall x | x in p ensures FirstIndex(ids, x) == FirstIndex(prefix, x) && FirstIndex(prefix, x) < |prefix| {
        FirstIndexPrefix(prefix, [last], x);
      }
      if last !in prefix {
        assert FirstIndex(ids, last) == |prefix| by {
          assert last !in ids[..|prefix|];
        }
        forall i, j | 0 <= i < j < |u|
          ensures FirstIndex(ids, u[i]) < FirstIndex(ids, u[j])
        {
          assert u[i] == p[i];
          if j < |p| {
            assert u[j] == p[j];
          }
        }
      }
    }
  }

  /** A list without repeats is kept as it is. */
  lemma {:induction false} FirstOccurrencesOfDistinct(ids: seq<int>)
    requires Distinct(ids)
    ensures FirstOccurrences(ids) == ids
    decreases |ids|
  {
    if |ids| > 0 {
      var prefix := ids[..|ids| - 1];
      FirstOccurrencesOfDistinct(prefix);
      assert ids == prefix + [ids[|ids| - 1]];
    }
  }

  /** Deduplicating twice is deduplicating once. */
  lemma FirstOccurrencesIdempotent(ids: seq<int>)
    ensures FirstOccurrences(FirstOccurrences(ids)) == FirstOccurrences(ids)
  {
    FirstOccurrencesDistinct(ids);
    FirstOccurrencesOfDistinct(FirstOccurrences(ids));
  }
}

=== FILE: broadcast.dfy ===
/** Fan-out of a draft post to the confirmed recipients
    (`bot/services/broadcast.py`): sequential sends with a bounded retry,
    per-recipient success/failure accounting, progress logs, pacing and a
    single final commit of the counts.

    The Telegram transport is an oracle from (recipient, attempt number) to
    the outcome of that `render_post_to_chat` call. Sleeps, send calls and
    progress logs are recorded in an event trace instead of being performed. */
module Broadcast {
  import opened Wrappers
  import opened Models
  import opened PostRepository
  import opened PostService

  /** What one `render_post_to_chat` call ends with. `OtherError` is any
      exception outside the classified set. */
  datatype SendOutcome =
    | Ok
    | Forbidden
    | NotFound
    | BadRequest
    | RetryAfter(seconds: nat)
    | NetworkError
    | OtherError

  /** Outcome of attempt `attempt` (from 0) of the send to recipient `tgId`. */
  type Transport = (int, nat) -> SendOutcome

  /** `send_delay_seconds` and `batch_log_every`. */
  datatype Config = Config(sendDelay: real, batchLogEvery: int)

  /** Observable steps of a broadcast, in the order they happen. `index` is
      the 1-based position of the recipient in the list; an `Attempt` is one
      `render_post_to_chat` call sending `post` to chat `tgId` (`CallOf`). */
  datatype Event =
    | Attempt(index: nat, tgId: int, attempt: nat, post: Post)
    | RetrySleep(seconds: real)
    | Progress(postId: int, sent: nat, total: nat)
    | PaceSleep(seconds: real)

  /** How one recipient ended: delivered, failed with a classified error
      (counted), or an unclassified error that escapes the broadcast. */
  datatype Delivery = Delivered | Failed(cause: SendOutcome) | Raised

  /** The end of `_send_with_retry` for one recipient: how it ended, how many
      send calls it made, and its events. */
  datatype SendReport = SendReport(delivery: Delivery, calls: nat, trace: seq<Event>)

  datatype BroadcastOutcome =
    | Completed(success: nat, failed: nat, table: PostTable, trace: seq<Event>)
    | PostNotFound
    | AlreadyProcessed
    | Aborted(trace: seq<Event>)

  /** The maximum number of retries after the first attempt. */
  const MaxRetries: nat := 2

  /** Only provider rate limits and network errors are retried. */
  predicate Retryable(o: SendOutcome) {
    o.RetryAfter? || o.NetworkError?
  }

  /** The back-off before the next attempt: the larger of the provider's
      `retry_after` and the send delay for a rate limit; the send delay, or
      0.1 s when it is zero, for a network error. */
  function RetryDelay(o: SendOutcome, sendDelay: real): (d: real)
    requires Retryable(o)
    ensures o.RetryAfter? ==> d >= o.seconds as real && d >= sendDelay && (d == o.seconds as real || d == sendDelay)
    ensures o.NetworkError? && sendDelay != 0.0 ==> d == sendDelay
    ensures o.NetworkError? && sendDelay == 0.0 ==> d == 0.1
  {
    if o.RetryAfter? then
      if o.seconds as real >= sendDelay then o.seconds as real else sendDelay
    else if sendDelay != 0.0 then sendDelay else 0.1
  }

  /** The send call an attempt makes: its post rendered to its chat,
      without markup. */
  function CallOf(e: Event): (c: SendCall<()>)
    requires e.Attempt?
    ensures c.chatId == e.tgId && c.replyMarkup.None?
  {
    RenderPostToChat(e.tgId, e.post, None)
  }

  /** `_send_with_retry`, starting at attempt number `attempts`. The last
      call decides: success delivers, a non-retryable error fails at once, a
      retryable error fails only when it is the third attempt, and an
      unclassified error escapes. `RetryTrace` states the shape of the
      trace. */
  function SendWithRetry(index: nat, tgId: int, post: Post, transport: Transport, sendDelay: real, attempts: nat)
    : (r: SendReport)
    requires attempts <= MaxRetries
    ensures 1 <= r.calls <= MaxRetries + 1 - attempts
    ensures |r.trace| == 2 * r.calls - 1
    ensures var last := transport(tgId, attempts + r.calls - 1);
      && (r.delivery.Delivered? <==> last.Ok?)
      && (r.delivery.Raised? <==> last.OtherError?)
      && (r.delivery.Failed? ==> r.delivery.cause == last)
      && (Retryable(last) ==> attempts + r.calls - 1 == MaxRetries)
    decreases MaxRetries - attempts
  {
    var call := Attempt(index, tgId, attempts, post);
    var outcome := transport(tgId, attempts);
    if outcome.Ok? then SendReport(Delivered, 1, [call])
    else if outcome.OtherError? then SendReport(Raised, 1, [call])
    else if Retryable(outcome) && attempts + 1 <= MaxRetries then
      var rest := SendWithRetry(index, tgId, post, transport, sendDelay, attempts + 1);
      SendReport(rest.delivery, rest.calls + 1, [call, RetrySleep(RetryDelay(outcome, sendDelay))] + rest.trace)
    else SendReport(Failed(outcome), 1, [call])
  }

  /** The shape of a `_send_with_retry` trace from attempt `attempt` on: the
      send call for that attempt, then either nothing more or the back-off
      sleep after its retryable failure and the rest from the next attempt. */
  predicate Alternates(tr: seq<Event>, index: nat, tgId: int, post: Post, transport: Transport, sendDelay: real, attempt: nat)
    decreases |tr|
  {
    && |tr| >= 1
    && tr[0] == Attempt(index, tgId, attempt, post)
    && (|tr| == 1 ||
         (&& |tr| >= 3
          && Retryable(transport(tgId, attempt))
          && tr[1] == RetrySleep(RetryDelay(transport(tgId, attempt), sendDelay))
          && Alternates(tr[2..], index, tgId, post, transport, sendDelay, attempt + 1)))
  }

  /** The trace of `_send_with_retry` alternates send calls, one per attempt
      in turn, with the back-off sleeps between them. */
  lemma {:induction false} RetryTrace(index: nat, tgId: int, post: Post, transport: Transport, sendDelay: real, attempts: nat)
    requires attempts <= MaxRetries
    ensures Alternates(SendWithRetry(index, tgId, post, transport, sendDelay, attempts).trace, index, tgId, post, transport, sendDelay, attempts)
    decreases MaxRetries - attempts
  {
    var outcome := transport(tgId, attempts);
    if !outcome.Ok? && !outcome.OtherError? && Retryable(outcome) && attempts + 1 <= MaxRetries {
      RetryTrace(index, tgId, post, transport, sendDelay, attempts + 1);
      var rest := SendWithRetry(index, tgId, post, transport, sendDelay, attempts + 1);
      var r := SendWithRetry(index, tgId, post, transport, sendDelay, attempts);
      assert r.trace == [Attempt(index, tgId, attempts, post), RetrySleep(RetryDelay(outcome, sendDelay))] + rest.trace;
      assert r.trace[2..] == rest.trace;
    }
  }

  /** What an alternating trace contains: only send calls to this recipient
      and back-off sleeps, the calls in increasing attempt order and never
      beyond the last retry. */
  lemma {:induction false} AlternatesSends(tr: seq<Event>, index: nat, tgId: int, post: Post, transport: Transport, sendDelay: real, attempt: nat)
    requires Alternates(tr, index, tgId, post, transport, sendDelay, attempt)
    requires |tr| + 2 * attempt <= 2 * MaxRetries + 1
    ensures forall j :: 0 <= j < |tr| ==> tr[j].Attempt? || tr[j].RetrySleep?
    ensures forall j :: 0 <= j < |tr| && tr[j].Attempt? ==>
      && tr[j].index == index && tr[j].tgId == tgId && attempt <= tr[j].attempt <= MaxRetries
      && tr[j].post == post
    ensures AttemptsInOrder(tr)
    decreases |tr|
  {
    if |tr| > 1 {
      var rest := tr[2..];
      AlternatesSends(rest, index, tgId, post, transport, sendDelay, attempt + 1);
      assert forall j :: 2 <= j < |tr| ==> tr[j] == rest[j - 2];
      forall a, b | 0 <= a < b < |tr| && tr[a].Attempt? && tr[b].Attempt?
        ensures tr[a].index < tr[b].index || (tr[a].index == tr[b].index && tr[a].attempt < tr[b].attempt)
      {
        if a >= 2 {
          assert tr[a] == rest[a - 2] && tr[b] == rest[b - 2];
        } else {
          assert a == 0 && b >= 2 && tr[b] == rest[b - 2];
        }
      }
    }
  }

  /** The running totals of the loop after some recipients. */
  datatype Tally = Tally(success: nat, failed: nat, trace: seq<Event>, aborted: bool)

  /** The progress log and pacing sleep that follow recipient `index`. */
  function AfterRecipient(postId: int, index: nat, total: nat, cfg: Config): seq<Event> {
    (if cfg.batchLogEvery > 0 && index % cfg.batchLogEvery == 0 then [Progress(postId, index, total)] else [])
    + (if cfg.sendDelay > 0.0 then [PaceSleep(cfg.sendDelay)] else [])
  }

  /** The send reports of all recipients in list order: entry `i` is
      `_send_with_retry` for the recipient at 1-based position `i + 1`. */
  function Reports(rs: seq<int>, post: Post, transport: Transport, cfg: Config): (r: seq<SendReport>)
    ensures |r| == |rs|
  {
    seq(|rs|, i requires 0 <= i < |rs| => SendWithRetry(i + 1, rs[i], post, transport, cfg.sendDelay, 0))
  }

  lemma ReportsAt(rs: seq<int>, post: Post, transport: Transport, cfg: Config, i: nat)
    requires i < |rs|
    ensures Reports(rs, post, transport, cfg)[i] == SendWithRetry(i + 1, rs[i], post, transport, cfg.sendDelay, 0)
  {
  }

  /** One turn of the loop: an escaping error stops it, otherwise the
      recipient is counted and its events appended. */
  function Step(t: Tally, rep: SendReport, after: seq<Event>): Tally {
    if t.aborted then t
    else if rep.delivery.Raised? then Tally(t.success, t.failed, t.trace + rep.trace, true)
    else if rep.delivery.Delivered? then Tally(t.success + 1, t.failed, t.trace + rep.trace + after, false)
    else Tally(t.success, t.failed + 1, t.trace + rep.trace + after, false)
  }

  /** Reference definition of the loop: the totals after the first `n`
      recipients, given the send report of each. */
  function Run(reports: seq<SendReport>, n: nat, postId: int, cfg: Config): Tally
    requires n <= |reports|
  {
    if n == 0 then Tally(0, 0, [], false)
    else Step(Run(reports, n - 1, postId, cfg), reports[n - 1], AfterRecipient(postId, n, |reports|, cfg))
  }

  /** The loop of `broadcast_post` over the recipients of `post`. */
  function Broadcast(rs: seq<int>, postId: int, post: Post, transport: Transport, cfg: Config): Tally {
    Run(Reports(rs, post, transport, cfg), |rs|, postId, cfg)
  }

  /** One turn of the loop for a recipient whose error does not escape. */
  lemma RunGoesOn(reports: seq<SendReport>, i: nat, postId: int, cfg: Config, t: Tally)
    requires i < |reports| && Run(reports, i, postId, cfg) == t && !t.aborted
    requires !reports[i].delivery.Raised?
    ensures Run(reports, i + 1, postId, cfg) ==
      Tally(if reports[i].delivery.Delivered? then t.success + 1 else t.success,
            if reports[i].delivery.Delivered? then t.failed else t.failed + 1,
            t.trace + reports[i].trace + AfterRecipient(postId, i + 1, |reports|, cfg), false)
  {
  }

  /** The turn for a recipient whose error escapes ends the loop. */
  lemma RunStops(reports: seq<SendReport>, i: nat, postId: int, cfg: Config, t: Tally)
    requires i < |reports| && Run(reports, i, postId, cfg) == t && !t.aborted
    requires reports[i].delivery.Raised?
    ensures Run(reports, |reports|, postId, cfg) == Tally(t.success, t.failed, t.trace + reports[i].trace, true)
  {
    RunStaysAborted(reports, i + 1, |reports|, postId, cfg);
  }

  /** The send loop of `broadcast_post`: every recipient in order, counting
      deliveries and classified failures, until an unclassified error
      escapes. */
  method SendAll(recipients: seq<int>, postId: int, post: Post, transport: Transport, cfg: Config)
    returns (t: Tally)
    ensures t == Broadcast(recipients, postId, post, transport, cfg)
    ensures !t.aborted ==> t.success + t.failed == |recipients|
  {
    ghost var reports := Reports(recipients, post, transport, cfg);
    var success: nat, failed: nat, trace: seq<Event> := 0, 0, [];
    var i := 0;
    while i < |recipients|
      invariant 0 <= i <= |recipients|
      invariant Run(reports, i, postId, cfg) == Tally(success, failed, trace, false)
      invariant success + failed == i
    {
      var report := SendWithRetry(i + 1, recipients[i], post, transport, cfg.sendDelay, 0);
      ReportsAt(recipients, post, transport, cfg, i);
      if report.delivery.Raised? {
        RunStops(reports, i, postId, cfg, Tally(success, failed, trace, false));
        return Tally(success, failed, trace + report.trace, true);
      }
      RunGoesOn(reports, i, postId, cfg, Tally(success, failed, trace, false));
      if report.delivery.Delivered? {
        success := success + 1;
      } else {
        failed := failed + 1;
      }
      trace := trace + report.trace + AfterRecipient(postId, i + 1, |recipients|, cfg);
      i := i + 1;
    }
    return Tally(success, failed, trace, false);
  }

  /** `broadcast_post`. A missing or non-draft post fails before any send; an
      unclassified error aborts without committing; otherwise every recipient
      is tried in order and the counts are committed once with `mark_sent`. */
  method BroadcastPost(table: PostTable, postId: int, recipients: seq<int>, transport: Transport, cfg: Config, now: real)
    returns (outcome: BroadcastOutcome)
    ensures Get(table, postId).None? ==> outcome == PostNotFound
    ensures Get(table, postId).Some? && Get(table, postId).value.status != Draft ==> outcome == AlreadyProcessed
    ensures Get(table, postId).Some? && Get(table, postId).value.status == Draft ==>
      var t := Broadcast(recipients, postId, Get(table, postId).value, transport, cfg);
      && (t.aborted ==> outcome == Aborted(t.trace))
      && (!t.aborted ==> outcome == Completed(t.success, t.failed, MarkSent(table, postId, now, t.success, t.failed), t.trace))
    ensures outcome.Completed? ==> outcome.success + outcome.failed == |recipients|
  {
    var found := Get(table, postId);
    if found.None? {
      return PostNotFound;
    }
    var post := found.value;
    if post.status != Draft {
      return AlreadyProcessed;
    }
    var t := SendAll(recipients, postId, post, transport, cfg);
    if t.aborted {
      return Aborted(t.trace);
    }
    var sent := MarkSent(table, postId, now, t.success, t.failed);
    return Completed(t.success, t.failed, sent, t.trace);
  }

  /** Once an escaping error stopped the loop, later recipients change nothing. */
  lemma {:induction false} RunStaysAborted(reports: seq<SendReport>, m: nat, n: nat, postId: int, cfg: Config)
    requires m <= n <= |reports|
    requires Run(reports, m, postId, cfg).aborted
    ensures Run(reports, n, postId, cfg) == Run(reports, m, postId, cfg)
    decreases n - m
  {
    if n > m {
      RunStaysAborted(reports, m, n - 1, postId, cfg);
    }
  }

  /** The positions 1..`n` that satisfy `p`. */
  function Positions(n: nat, p: nat -> bool): set<nat> {
    set i: nat | 1 <= i <= n && p(i)
  }

  lemma PositionsStep(n: nat, p: nat -> bool)
    requires n >= 1
    ensures |Positions(n, p)| == |Positions(n - 1, p)| + (if p(n) then 1 else 0)
  {
    if p(n) {
      assert Positions(n, p) == Positions(n - 1, p) + {n};
    } else {
      assert Positions(n, p) == Positions(n - 1, p);
    }
  }

  /** Whether the send to the recipient at a position ends delivered
      (`wanted`) or not. */
  function EndsDelivered(reports: seq<SendReport>, wanted: bool): nat -> bool {
    i => 1 <= i <= |reports| && reports[i - 1].delivery.Delivered? == wanted
  }

  /** The loop stops exactly when some recipient's error escapes. */
  lemma {:induction false} RunAbortsIff(reports: seq<SendReport>, n: nat, postId: int, cfg: Config)
    requires n <= |reports|
    ensures Run(reports, n, postId, cfg).aborted <==>
      exists i :: 0 <= i < n && reports[i].delivery.Raised?
  {
    if n > 0 {
      RunAbortsIff(reports, n - 1, postId, cfg);
    }
  }

  /** Accounting of the loop: until it stops, every recipient adds one to
      exactly one counter, the success counter counting the delivered ones
      and the failure counter all the others. */
  lemma {:induction false} RunAccounting(reports: seq<SendReport>, n: nat, postId: int, cfg: Config)
    requires n <= |reports|
    requires !Run(reports, n, postId, cfg).aborted
    ensures var t := Run(reports, n, postId, cfg);
      && t.success + t.failed == n
      && t.success == |Positions(n, EndsDelivered(reports, true))|
      && t.failed == |Positions(n, EndsDelivered(reports, false))|
  {
    if n > 0 {
      var t := Run(reports, n - 1, postId, cfg);
      assert !t.aborted;
      RunAccounting(reports, n - 1, postId, cfg);
      PositionsStep(n, EndsDelivered(reports, true));
      PositionsStep(n, EndsDelivered(reports, false));
    }
  }

  /** Send calls in a trace come in strictly increasing (position, attempt)
      order: one recipient at a time, in list order, each attempt once. */
  predicate AttemptsInOrder(tr: seq<Event>) {
    forall a, b :: 0 <= a < b < |tr| && tr[a].Attempt? && tr[b].Attempt? ==>
      tr[a].index < tr[b].index || (tr[a].index == tr[b].index && tr[a].attempt < tr[b].attempt)
  }

  /** Every send call in the trace goes to the listed recipient at its
      position among the first `n`, renders the post, and is one of at most
      three attempts. */
  predicate AttemptsWithin(tr: seq<Event>, rs: seq<int>, n: nat, post: Post)
    requires n <= |rs|
  {
    forall a :: 0 <= a < |tr| && tr[a].Attempt? ==>
      && 1 <= tr[a].index <= n && tr[a].tgId == rs[tr[a].index - 1]
      && tr[a].attempt <= MaxRetries && tr[a].post == post
  }

  /** Only send calls and back-off sleeps. */
  predicate OwnEventsOnly(tr: seq<Event>) {
    forall a :: 0 <= a < |tr| ==> tr[a].Attempt? || tr[a].RetrySleep?
  }

  /** The events of one recipient: its own send calls, all to the recipient
      at `index`, in attempt order, rendering the post; and back-off sleeps. */
  predicate SendsOnlyTo(tr: seq<Event>, index: nat, tgId: int, post: Post) {
    && OwnEventsOnly(tr)
    && AttemptsInOrder(tr)
    && forall a :: 0 <= a < |tr| && tr[a].Attempt? ==>
         tr[a].index == index && tr[a].tgId == tgId && tr[a].attempt <= MaxRetries && tr[a].post == post
  }

  /** Every report sends only to its own recipient. */
  predicate ReportsSendOwn(reports: seq<SendReport>, rs: seq<int>, post: Post) {
    |reports| == |rs| && forall i :: 0 <= i < |rs| ==> SendsOnlyTo(reports[i].trace, i + 1, rs[i], post)
  }

  lemma ReportSendsOnlyTo(index: nat, tgId: int, post: Post, transport: Transport, sendDelay: real)
    ensures SendsOnlyTo(SendWithRetry(index, tgId, post, transport, sendDelay, 0).trace, index, tgId, post)
  {
    RetryTrace(index, tgId, post, transport, sendDelay, 0);
    AlternatesSends(SendWithRetry(index, tgId, post, transport, sendDelay, 0).trace, index, tgId, post, transport, sendDelay, 0);
  }

  lemma ReportAtSendsOnlyTo(rs: seq<int>, post: Post, transport: Transport, cfg: Config, i: nat)
    requires i < |rs|
    ensures SendsOnlyTo(Reports(rs, post, transport, cfg)[i].trace, i + 1, rs[i], post)
  {
    ReportsAt(rs, post, transport, cfg, i);
    ReportSendsOnlyTo(i + 1, rs[i], post, transport, cfg.sendDelay);
  }

  /** The reports of a broadcast each send only to their own recipient. */
  lemma AllReportsSendOwn(rs: seq<int>, post: Post, transport: Transport, cfg: Config)
    ensures ReportsSendOwn(Reports(rs, post, transport, cfg), rs, post)
  {
    forall i | 0 <= i < |rs| ensures SendsOnlyTo(Reports(rs, post, transport, cfg)[i].trace, i + 1, rs[i], post) {
      ReportAtSendsOnlyTo(rs, post, transport, cfg, i);
    }
  }

  lemma AppendQuiet(front: seq<Event>, back: seq<Event>)
    requires AttemptsInOrder(front)
    requires forall b :: 0 <= b < |back| ==> !back[b].Attempt?
    ensures AttemptsInOrder(front + back)
  {
    var tr := front + back;
    forall a, b | 0 <= a < b < |tr| && tr[a].Attempt? && tr[b].Attempt?
      ensures tr[a].index < tr[b].index || (tr[a].index == tr[b].index && tr[a].attempt < tr[b].attempt)
    {
      assert b < |front|;
      assert tr[a] == front[a] && tr[b] == front[b];
    }
  }

  lemma AppendInOrder(front: seq<Event>, back: seq<Event>, k: nat)
    requires AttemptsInOrder(front) && AttemptsInOrder(back)
    requires forall a :: 0 <= a < |front| && front[a].Attempt? ==> front[a].index < k
    requires forall b :: 0 <= b < |back| && back[b].Attempt? ==> back[b].index == k
    ensures AttemptsInOrder(front + back)
  {
    var tr := front + back;
    forall a, b | 0 <= a < b < |tr| && tr[a].Attempt? && tr[b].Attempt?
      ensures tr[a].index < tr[b].index || (tr[a].index == tr[b].index && tr[a].attempt < tr[b].attempt)
    {
      if b < |front| {
        assert tr[a] == front[a] && tr[b] == front[b];
      } else if a >= |front| {
        assert tr[a] == back[a - |front|] && tr[b] == back[b - |front|];
      } else {
        assert tr[a] == front[a] && tr[b] == back[b - |front|];
      }
    }
  }

  /** The events one recipient adds to the trace. */
  function Block(rep: SendReport, after: seq<Event>): seq<Event> {
    if rep.delivery.Raised? then rep.trace else rep.trace + after
  }

  lemma RunTraceGrows(reports: seq<SendReport>, n: nat, postId: int, cfg: Config)
    requires 1 <= n <= |reports|
    requires !Run(reports, n - 1, postId, cfg).aborted
    ensures Run(reports, n, postId, cfg).trace ==
      Run(reports, n - 1, postId, cfg).trace + Block(reports[n - 1], AfterRecipient(postId, n, |reports|, cfg))
  {
  }

  lemma AfterQuiet(postId: int, index: nat, total: nat, cfg: Config)
    ensures forall b :: 0 <= b < |AfterRecipient(postId, index, total, cfg)| ==> !AfterRecipient(postId, index, total, cfg)[b].Attempt?
  {
  }

  /** The events of the recipient at position `n` are in order and send
      only to it. */
  lemma BlockSendsOnlyTo(reports: seq<SendReport>, rs: seq<int>, n: nat, postId: int, post: Post, cfg: Config)
    requires 1 <= n <= |rs| && ReportsSendOwn(reports, rs, post)
    ensures var block := Block(reports[n - 1], AfterRecipient(postId, n, |reports|, cfg));
      && AttemptsInOrder(block)
      && AttemptsWithin(block, rs, n, post)
      && forall b :: 0 <= b < |block| && block[b].Attempt? ==> block[b].index == n
  {
    var rep := reports[n - 1];
    assert SendsOnlyTo(rep.trace, n, rs[n - 1], post);
    var after := AfterRecipient(postId, n, |reports|, cfg);
    AfterQuiet(postId, n, |reports|, cfg);
    var block := Block(rep, after);
    if !rep.delivery.Raised? {
      AppendQuiet(rep.trace, after);
    }
    forall b | 0 <= b < |block| && block[b].Attempt?
      ensures block[b] == rep.trace[b]
    {
      assert b < |rep.trace|;
    }
  }

  /** The whole broadcast trace sends one recipient at a time in list order,
      and each attempt of a recipient at most once. */
  lemma {:induction false} RunInOrder(reports: seq<SendReport>, rs: seq<int>, n: nat, postId: int, post: Post, cfg: Config)
    requires n <= |rs| && ReportsSendOwn(reports, rs, post)
    ensures AttemptsInOrder(Run(reports, n, postId, cfg).trace)
  {
    if n > 0 {
      RunInOrder(reports, rs, n - 1, postId, post, cfg);
      var t := Run(reports, n - 1, postId, cfg);
      if !t.aborted {
        RunSendsListed(reports, rs, n - 1, postId, post, cfg);
        assert forall a :: 0 <= a < |t.trace| && t.trace[a].Attempt? ==> t.trace[a].index < n;
        BlockSendsOnlyTo(reports, rs, n, postId, post, cfg);
        AppendInOrder(t.trace, Block(reports[n - 1], AfterRecipient(postId, n, |reports|, cfg)), n);
        RunTraceGrows(reports, n, postId, cfg);
      }
    }
  }

  lemma AttemptsWithinWiden(tr: seq<Event>, rs: seq<int>, m: nat, n: nat, post: Post)
    requires m <= n <= |rs| && AttemptsWithin(tr, rs, m, post)
    ensures AttemptsWithin(tr, rs, n, post)
  {
  }

  lemma AttemptsWithinAppend(x: seq<Event>, y: seq<Event>, rs: seq<int>, n: nat, post: Post)
    requires n <= |rs| && AttemptsWithin(x, rs, n, post) && AttemptsWithin(y, rs, n, post)
    ensures AttemptsWithin(x + y, rs, n, post)
  {
    var tr := x + y;
    forall a | 0 <= a < |tr| && tr[a].Attempt?
      ensures 1 <= tr[a].index <= n && tr[a].tgId == rs[tr[a].index - 1]
      ensures tr[a].attempt <= MaxRetries && tr[a].post == post
    {
      if a < |x| {
        assert tr[a] == x[a];
      } else {
        assert tr[a] == y[a - |x|];
      }
    }
  }

  /** Every send call of the loop goes to the listed recipient at its
      position, is one of at most three attempts, and sends the rendered post. */
  lemma {:induction false} RunSendsListed(reports: seq<SendReport>, rs: seq<int>, n: nat, postId: int, post: Post, cfg: Config)
    requires n <= |rs| && ReportsSendOwn(reports, rs, post)
    ensures AttemptsWithin(Run(reports, n, postId, cfg).trace, rs, n, post)
  {
    if n > 0 {
      RunSendsListed(reports, rs, n - 1, postId, post, cfg);
      var t := Run(reports, n - 1, postId, cfg);
      AttemptsWithinWiden(t.trace, rs, n - 1, n, post);
      if !t.aborted {
        BlockSendsOnlyTo(reports, rs, n, postId, post, cfg);
        RunTraceGrows(reports, n, postId, cfg);
        AttemptsWithinAppend(t.trace, Block(reports[n - 1], AfterRecipient(postId, n, |reports|, cfg)), rs, n, post);
      }
    }
  }

  /** The send calls of a whole broadcast go one recipient at a time, in
      list order, each attempt at most once and at most three per
      recipient, always to the listed recipient and with the rendered post. */
  lemma BroadcastSendsInOrder(rs: seq<int>, postId: int, post: Post, transport: Transport, cfg: Config)
    ensures var tr := Broadcast(rs, postId, post, transport, cfg).trace;
      AttemptsInOrder(tr) && AttemptsWithin(tr, rs, |rs|, post)
  {
    AllReportsSendOwn(rs, post, transport, cfg);
    RunInOrder(Reports(rs, post, transport, cfg), rs, |rs|, postId, post, cfg);
    RunSendsListed(Reports(rs, post, transport, cfg), rs, |rs|, postId, post, cfg);
  }

  /** Every report holds only send calls and back-off sleeps. */
  predicate QuietReports(reports: seq<SendReport>) {
    forall i :: 0 <= i < |reports| ==> OwnEventsOnly(reports[i].trace)
  }

  lemma AllReportsQuiet(rs: seq<int>, post: Post, transport: Transport, cfg: Config)
    ensures QuietReports(Reports(rs, post, transport, cfg))
  {
    AllReportsSendOwn(rs, post, transport, cfg);
  }

  /** Every pacing sleep in the trace lasts `d`, and there are none unless
      `d` is positive. */
  predicate PacesAre(tr: seq<Event>, d: real) {
    forall a :: 0 <= a < |tr| && tr[a].PaceSleep? ==> d > 0.0 && tr[a].seconds == d
  }

  /** Every progress log in the trace names the post and the total. */
  predicate ProgressFor(tr: seq<Event>, postId: int, total: nat) {
    forall a :: 0 <= a < |tr| && tr[a].Progress? ==> tr[a].postId == postId && tr[a].total == total
  }

  lemma TraceAppend(x: seq<Event>, y: seq<Event>, z: seq<Event>, d: real, postId: int, total: nat)
    requires PacesAre(x, d) && PacesAre(y, d) && PacesAre(z, d)
    requires ProgressFor(x, postId, total) && ProgressFor(y, postId, total) && ProgressFor(z, postId, total)
    ensures PacesAre(x + y + z, d) && ProgressFor(x + y + z, postId, total)
  {
    var tr := x + y + z;
    forall a | 0 <= a < |tr|
      ensures (a < |x| ==> tr[a] == x[a])
      ensures (|x| <= a < |x| + |y| ==> tr[a] == y[a - |x|])
      ensures (|x| + |y| <= a ==> tr[a] == z[a - |x| - |y|])
    {
    }
  }

  /** The events one recipient adds when the loop goes on after it: its
      own sends, then the progress log and pacing sleep that follow. */
  lemma RunStepEvents(reports: seq<SendReport>, n: nat, postId: int, cfg: Config)
    requires 1 <= n <= |reports|
    requires !Run(reports, n, postId, cfg).aborted
    ensures !Run(reports, n - 1, postId, cfg).aborted
    ensures Run(reports, n, postId, cfg).trace ==
      Run(reports, n - 1, postId, cfg).trace + reports[n - 1].trace + AfterRecipient(postId, n, |reports|, cfg)
  {
  }

  lemma CountAppend(x: seq<Event>, y: seq<Event>, z: seq<Event>, e: Event)
    requires e !in y
    ensures multiset(x + y + z)[e] == multiset(x)[e] + multiset(z)[e]
  {
    assert multiset(x + y + z) == multiset(x) + multiset(y) + multiset(z);
  }

  lemma AfterPaces(postId: int, index: nat, total: nat, cfg: Config)
    ensures var after := AfterRecipient(postId, index, total, cfg);
      && multiset(after)[PaceSleep(cfg.sendDelay)] == (if cfg.sendDelay > 0.0 then 1 else 0)
      && PacesAre(after, cfg.sendDelay)
      && ProgressFor(after, postId, total)
  {
  }

  /** Every pacing sleep lasts `send_delay` (none unless it is positive),
      and every progress log names the post and the number of recipients. */
  lemma {:induction false} RunLogsAndSleeps(reports: seq<SendReport>, n: nat, postId: int, cfg: Config)
    requires n <= |reports| && QuietReports(reports)
    requires !Run(reports, n, postId, cfg).aborted
    ensures PacesAre(Run(reports, n, postId, cfg).trace, cfg.sendDelay)
    ensures ProgressFor(Run(reports, n, postId, cfg).trace, postId, |reports|)
  {
    if n > 0 {
      RunStepEvents(reports, n, postId, cfg);
      RunLogsAndSleeps(reports, n - 1, postId, cfg);
      var own := reports[n - 1].trace;
      assert OwnEventsOnly(own);
      AfterPaces(postId, n, |reports|, cfg);
      TraceAppend(Run(reports, n - 1, postId, cfg).trace, own, AfterRecipient(postId, n, |reports|, cfg), cfg.sendDelay, postId, |reports|);
    }
  }

  /** Pacing: after each recipient the loop sleeps `send_delay` exactly when
      the delay is positive, so there are as many pacing sleeps as
      recipients, or none. */
  lemma {:induction false} RunPacing(reports: seq<SendReport>, n: nat, postId: int, cfg: Config)
    requires n <= |reports| && QuietReports(reports)
    requires !Run(reports, n, postId, cfg).aborted
    ensures multiset(Run(reports, n, postId, cfg).trace)[PaceSleep(cfg.sendDelay)] ==
      (if cfg.sendDelay > 0.0 then n else 0)
  {
    if n > 0 {
      RunStepEvents(reports, n, postId, cfg);
      RunPacing(reports, n - 1, postId, cfg);
      var own := reports[n - 1].trace;
      assert OwnEventsOnly(own);
      AfterPaces(postId, n, |reports|, cfg);
      assert PaceSleep(cfg.sendDelay) !in own;
      CountAppend(Run(reports, n - 1, postId, cfg).trace, own, AfterRecipient(postId, n, |reports|, cfg), PaceSleep(cfg.sendDelay));
    }
  }

  /** Progress is logged after the recipient at 1-based position `k` exactly
      when `batch_log_every` is positive and divides `k`. */
  lemma {:induction false} RunProgress(reports: seq<SendReport>, n: nat, postId: int, cfg: Config)
    requires n <= |reports| && QuietReports(reports)
    requires !Run(reports, n, postId, cfg).aborted
    ensures forall k: nat :: Progress(postId, k, |reports|) in Run(reports, n, postId, cfg).trace <==>
      1 <= k <= n && cfg.batchLogEvery > 0 && k % cfg.batchLogEvery == 0
  {
    if n > 0 {
      RunStepEvents(reports, n, postId, cfg);
      RunProgress(reports, n - 1, postId, cfg);
      var before := Run(reports, n - 1, postId, cfg).trace;
      var own := reports[n - 1].trace;
      assert OwnEventsOnly(own);
      var after := AfterRecipient(postId, n, |reports|, cfg);
      forall k: nat
        ensures Progress(postId, k, |reports|) in before + own + after <==>
          1 <= k <= n && cfg.batchLogEvery > 0 && k % cfg.batchLogEvery == 0
      {
        assert Progress(postId, k, |reports|) !in own;
        assert Progress(postId, k, |reports|) in after <==> k == n && cfg.batchLogEvery > 0 && n % cfg.batchLogEvery == 0;
      }
    }
  }

  /** Blocked, deleted and malformed sends are never retried: the first one
      ends the recipient as failed after a single call. */
  lemma NoRetryOnPermanentError(index: nat, tgId: int, post: Post, transport: Transport, sendDelay: real)
    requires var o := transport(tgId, 0); o.Forbidden? || o.NotFound? || o.BadRequest?
    ensures var r := SendWithRetry(index, tgId, post, transport, sendDelay, 0);
      r.calls == 1 && r.delivery == Failed(transport(tgId, 0))
  {
  }

  /** A rate limit followed by a successful retry counts as delivered; three
      rate limits in a row count as one failure after three calls. */
  lemma RetryOutcomes(index: nat, tgId: int, post: Post, transport: Transport, sendDelay: real)
    ensures transport(tgId, 0) == RetryAfter(5) && transport(tgId, 1).Ok? ==>
      var r := SendWithRetry(index, tgId, post, transport, sendDelay, 0);
      r.delivery.Delivered? && r.calls == 2
      && r.trace[1] == RetrySleep(if 5.0 >= sendDelay then 5.0 else sendDelay)
    ensures Retryable(transport(tgId, 0)) && Retryable(transport(tgId, 1)) && Retryable(transport(tgId, 2)) ==>
      var r := SendWithRetry(index, tgId, post, transport, sendDelay, 0);
      r.delivery == Failed(transport(tgId, 2)) && r.calls == 3
  {
    RetryTrace(index, tgId, post, transport, sendDelay, 0);
  }

  /** Three recipients of which the second has blocked the bot: two
      successes, one failure. */
  lemma BlockedRecipientExample(post: Post, cfg: Config)
    ensures var transport: Transport := (tgId, attempt) => if tgId == 2 then Forbidden else Ok;
      var t := Broadcast([1, 2, 3], post.id, post, transport, cfg);
      !t.aborted && t.success == 2 && t.failed == 1
  {
    var transport: Transport := (tgId, attempt) => if tgId == 2 then Forbidden else Ok;
    var reports := Reports([1, 2, 3], post, transport, cfg);
    assert reports[0].delivery == Delivered;
    assert reports[1].delivery == Failed(Forbidden);
    assert reports[2].delivery == Delivered;
    var t0 := Run(reports, 0, post.id, cfg);
    assert !t0.aborted && t0.success == 0 && t0.failed == 0;
    var t1 := Run(reports, 1, post.id, cfg);
    assert !t1.aborted && t1.success == 1 && t1.failed == 0;
    var t2 := Run(reports, 2, post.id, cfg);
    assert !t2.aborted && t2.success == 1 && t2.failed == 1;
  }
}

=== FILE: config.dfy ===
/** The `ADMIN_IDS` setting (`bot/config.py`): the raw value may be absent,
    an int, a list or a comma-separated string, and becomes a list of ints.
    Python's `int(...)` is the decimal `Text.ParseInt`; a value it rejects
    is a validation error. */
module Config {
  import opened Wrappers
  import opened Text

  /** An element of a list value: already an int, or text to convert. */
  datatype ListItem = ItemInt(n: int) | ItemStr(s: string)

  /** The raw setting as it reaches the validator. */
  datatype AdminIdsValue = NoValue | IntValue(n: int) | ListValue(items: seq<ListItem>) | StrValue(s: string)

  datatype ConfigError = InvalidInteger(text: string)

  function ConvertItem(x: ListItem): Option<int> {
    match x
    case ItemInt(n) => Some(n)
    case ItemStr(s) => ParseInt(s)
  }

  /** `[int(x) for x in items]`: element-wise, in order, failing on the
      first item that is not an integer. */
  function ConvertItems(items: seq<ListItem>): (r: Result<seq<int>, ConfigError>)
    ensures r.Success? <==> forall i :: 0 <= i < |items| ==> ConvertItem(items[i]).Some?
    ensures r.Success? ==>
      |r.value| == |items| && forall i :: 0 <= i < |items| ==> r.value[i] == ConvertItem(items[i]).value
    ensures r.Failure? ==>
      exists i :: 0 <= i < |items| && items[i].ItemStr? && ConvertItem(items[i]).None? && r.error == InvalidInteger(items[i].s)
  {
    if |items| == 0 then Success([])
    else
      match ConvertItem(items[0])
      case None => Failure(InvalidInteger(items[0].s))
      case Some(n) =>
        var rest :- ConvertItems(items[1..]);
        Success([n] + rest)
  }

  /** `[item.strip() for item in pieces]`. */
  function StripAll(pieces: seq<string>): (r: seq<string>)
    ensures |r| == |pieces| && forall i :: 0 <= i < |r| ==> r[i] == Strip(pieces[i])
  {
    seq(|pieces|, i requires 0 <= i < |pieces| => Strip(pieces[i]))
  }

  /** The non-empty texts, in order. */
  function NonEmpty(texts: seq<string>): (r: seq<string>)
    ensures |r| <= |texts|
    ensures forall i :: 0 <= i < |r| ==> |r[i]| > 0
    // exactly the non-empty texts, each as often as it occurs
    ensures multiset(r) == multiset(texts)["" := 0]
  {
    assert |texts| > 0 ==> texts == [texts[0]] + texts[1..];
    if |texts| == 0 then []
    else if |texts[0]| == 0 then NonEmpty(texts[1..])
    else [texts[0]] + NonEmpty(texts[1..])
  }

  /** `[item.strip() for item in pieces if item.strip()]`. */
  function CsvPieces(pieces: seq<string>): (r: seq<string>)
    ensures |r| <= |pieces|
    // exactly the stripped pieces that are not blank, each as often as it occurs
    ensures multiset(r) == multiset(StripAll(pieces))["" := 0]
  {
    NonEmpty(StripAll(pieces))
  }

  /** Without empty texts nothing is dropped. */
  lemma {:induction false} NonEmptyKeepsAll(texts: seq<string>)
    requires forall j :: 0 <= j < |texts| ==> |texts[j]| > 0
    ensures NonEmpty(texts) == texts
  {
    if |texts| > 0 {
      NonEmptyKeepsAll(texts[1..]);
      assert [texts[0]] + texts[1..] == texts;
    }
  }

  /** A non-empty text is kept. */
  lemma {:induction false} NonEmptyKeeps(texts: seq<string>, j: nat)
    requires j < |texts| && |texts[j]| > 0
    ensures texts[j] in NonEmpty(texts)
  {
    if j > 0 {
      NonEmptyKeeps(texts[1..], j - 1);
      assert texts[1..][j - 1] == texts[j];
    }
  }

  /** An empty text is dropped. */
  lemma {:induction false} NonEmptyDrops(texts: seq<string>, j: nat)
    requires j < |texts| && |texts[j]| == 0
    ensures |NonEmpty(texts)| < |texts|
  {
    if j > 0 {
      NonEmptyDrops(texts[1..], j - 1);
    }
  }

  /** The strip-and-skip pass keeps every piece, stripped and in order,
      exactly when no piece is blank. */
  lemma CsvPiecesKeepsAll(pieces: seq<string>)
    ensures (forall j :: 0 <= j < |pieces| ==> !IsBlank(pieces[j])) <==> CsvPieces(pieces) == StripAll(pieces)
  {
    var stripped := StripAll(pieces);
    if forall j :: 0 <= j < |pieces| ==> !IsBlank(pieces[j]) {
      NonEmptyKeepsAll(stripped);
    } else {
      var j :| 0 <= j < |pieces| && IsBlank(pieces[j]);
      NonEmptyDrops(stripped, j);
    }
  }

  function AsItems(texts: seq<string>): (r: seq<ListItem>)
    ensures |r| == |texts| && forall i :: 0 <= i < |r| ==> r[i] == ItemStr(texts[i])
  {
    seq(|texts|, i requires 0 <= i < |texts| => ItemStr(texts[i]))
  }

  /** `Settings._split_admin_ids`. */
  function SplitAdminIds(v: AdminIdsValue): (r: Result<seq<int>, ConfigError>)
    ensures v.NoValue? || v == StrValue("") ==> r == Success([])
    ensures v.IntValue? ==> r == Success([v.n])
    ensures v.ListValue? ==> r == ConvertItems(v.items)
    ensures v.StrValue? && v.s != "" ==> r == ConvertItems(AsItems(CsvPieces(Split(v.s, ','))))
  {
    match v
    case NoValue => Success([])
    case IntValue(n) => Success([n])
    case ListValue(items) => ConvertItems(items)
    case StrValue(s) =>
      if s == "" then Success([]) else ConvertItems(AsItems(CsvPieces(Split(s, ','))))
  }

  /** A text that does not parse makes the conversion fail. */
  lemma ConvertFails(texts: seq<string>, i: nat)
    requires i < |texts| && ParseInt(texts[i]).None?
    ensures ConvertItems(AsItems(texts)).Failure?
  {
    assert ConvertItem(AsItems(texts)[i]).None?;
  }

  /** A non-blank piece survives the strip-and-skip pass, stripped. */
  lemma CsvPiecesKeeps(pieces: seq<string>, j: nat)
    requires j < |pieces| && !IsBlank(pieces[j])
    ensures Strip(pieces[j]) in CsvPieces(pieces)
  {
    NonEmptyKeeps(StripAll(pieces), j);
  }

  function Decimals(ids: seq<int>): (r: seq<string>)
    ensures |r| == |ids| && forall i :: 0 <= i < |ids| ==> r[i] == IntToDecimal(ids[i])
  {
    seq(|ids|, i requires 0 <= i < |ids| => IntToDecimal(ids[i]))
  }

  /** Decimal ids joined by commas. */
  function CsvOf(ids: seq<int>): (r: string)
    ensures |ids| > 0 ==> |r| > 0
  {
    Join(Decimals(ids), ',')
  }

  /** Decimals have no whitespace, so the strip-and-skip pass keeps them. */
  lemma CsvPiecesOfDecimals(ids: seq<int>)
    ensures CsvPieces(Decimals(ids)) == Decimals(ids)
  {
    var texts := Decimals(ids);
    forall j | 0 <= j < |texts| ensures |texts[j]| > 0 && Strip(texts[j]) == texts[j] {
      StripTrimmed(texts[j]);
    }
    assert StripAll(texts) == texts;
    NonEmptyKeepsAll(texts);
  }

  /** Decimals convert back to the ids. */
  lemma ConvertDecimals(ids: seq<int>)
    ensures ConvertItems(AsItems(Decimals(ids))) == Success(ids)
  {
    var items := AsItems(Decimals(ids));
    forall i | 0 <= i < |ids| ensures ConvertItem(items[i]) == Some(ids[i]) {
      ParseIntOfDecimal(ids[i]);
    }
    var r := ConvertItems(items);
    assert r.Success?;
    assert r.value == ids;
  }

  /** A list of ids written as comma-separated decimals parses back to the
      same list. */
  lemma CsvRoundTrip(ids: seq<int>)
    requires |ids| > 0
    ensures SplitAdminIds(StrValue(CsvOf(ids))) == Success(ids)
  {
    SplitJoin(Decimals(ids), ',');
    CsvPiecesOfDecimals(ids);
    ConvertDecimals(ids);
  }

  lemma StripAllAppend(a: seq<string>, b: seq<string>)
    ensures StripAll(a + b) == StripAll(a) + StripAll(b)
  {
  }

  lemma {:induction false} NonEmptyAppend(a: seq<string>, b: seq<string>)
    ensures NonEmpty(a + b) == NonEmpty(a) + NonEmpty(b)
  {
    if |a| > 0 {
      assert (a + b)[0] == a[0] && (a + b)[1..] == a[1..] + b;
      NonEmptyAppend(a[1..], b);
    } else {
      assert a + b == b;
    }
  }

  /** A blank piece anywhere among the comma-separated pieces is skipped:
      the kept pieces are those of the value without it. */
  lemma CsvPiecesSkipsBlank(a: seq<string>, blank: string, b: seq<string>)
    requires IsBlank(blank)
    ensures CsvPieces(a + [blank] + b) == CsvPieces(a + b)
  {
    StripAllAppend(a + [blank], b);
    StripAllAppend(a, [blank]);
    StripAllAppend(a, b);
    assert StripAll([blank]) == [""];
    NonEmptyAppend(StripAll(a) + [""], StripAll(b));
    NonEmptyAppend(StripAll(a), [""]);
    NonEmptyAppend(StripAll(a), StripAll(b));
    assert NonEmpty([""]) == [];
    assert NonEmpty(StripAll(a)) + [] == NonEmpty(StripAll(a));
  }

  /** Inserting a comma-free piece among comma-free texts keeps every
      piece comma-free. */
  lemma NoCommaInserted(texts: seq<string>, k: nat, piece: string)
    requires k <= |texts| && ',' !in piece
    requires forall i :: 0 <= i < |texts| ==> ',' !in texts[i]
    ensures forall i :: 0 <= i < |texts| + 1 ==> ',' !in (texts[..k] + [piece] + texts[k..])[i]
  {
    var pieces := texts[..k] + [piece] + texts[k..];
    forall i | 0 <= i < |pieces| ensures ',' !in pieces[i] {
      if i < k {
        assert pieces[i] == texts[i];
      } else if i > k {
        assert pieces[i] == texts[i - 1];
      }
    }
  }

  lemma DecimalsHaveNoComma(ids: seq<int>)
    ensures forall i :: 0 <= i < |ids| ==> ',' !in Decimals(ids)[i]
  {
    forall i | 0 <= i < |ids| ensures ',' !in Decimals(ids)[i] {
      var t := IntToDecimal(ids[i]);
      assert forall m :: 0 <= m < |t| ==> t[m] != ',';
    }
  }

  lemma BlankHasNoComma(blank: string)
    requires IsBlank(blank)
    ensures ',' !in blank
  {
    assert forall m :: 0 <= m < |blank| ==> blank[m] != ',';
  }

  /** The decimals with `piece` inserted before the `k`-th. */
  function WithPiece(ids: seq<int>, k: nat, piece: string): (r: seq<string>)
    requires k <= |ids|
    ensures |r| == |ids| + 1 && r[k] == piece
  {
    Decimals(ids)[..k] + [piece] + Decimals(ids)[k..]
  }

  lemma SplitWithPiece(ids: seq<int>, k: nat, piece: string)
    requires k <= |ids| && ',' !in piece
    ensures Split(Join(WithPiece(ids, k, piece), ','), ',') == WithPiece(ids, k, piece)
  {
    DecimalsHaveNoComma(ids);
    NoCommaInserted(Decimals(ids), k, piece);
    SplitJoin(WithPiece(ids, k, piece), ',');
  }

  lemma CsvPiecesWithBlank(ids: seq<int>, k: nat, blank: string)
    requires k <= |ids| && IsBlank(blank)
    ensures CsvPieces(WithPiece(ids, k, blank)) == Decimals(ids)
  {
    var texts := Decimals(ids);
    assert texts[..k] + texts[k..] == texts;
    CsvPiecesSkipsBlank(texts[..k], blank, texts[k..]);
    CsvPiecesOfDecimals(ids);
  }

  /** Comma-separated decimals with a blank piece inserted anywhere (as in
      `"1, ,2"`) still parse to the ids: blank pieces are skipped, never
      rejected. */
  lemma CsvBlankIgnored(ids: seq<int>, k: nat, blank: string)
    requires k <= |ids| && IsBlank(blank)
    ensures SplitAdminIds(StrValue(Join(WithPiece(ids, k, blank), ','))) == Success(ids)
  {
    BlankHasNoComma(blank);
    SplitWithPiece(ids, k, blank);
    CsvPiecesWithBlank(ids, k, blank);
    ConvertDecimals(ids);
  }

  /** A piece holding a non-numeric character is not blank and does not
      parse once stripped. */
  lemma NonNumberPiece(piece: string, m: nat)
    requires m < |piece| && NonNumeric(piece[m])
    ensures !IsBlank(piece) && ParseInt(Strip(piece)).None?
  {
    StripKeeps(piece, m);
    ParseRejects(Strip(piece), piece[m]);
  }

  /** A non-blank piece that does not parse makes the conversion fail. */
  lemma CsvPiecesReject(pieces: seq<string>, j: nat)
    requires j < |pieces| && !IsBlank(pieces[j]) && ParseInt(Strip(pieces[j])).None?
    ensures ConvertItems(AsItems(CsvPieces(pieces))).Failure?
  {
    CsvPiecesKeeps(pieces, j);
    var i :| 0 <= i < |CsvPieces(pieces)| && CsvPieces(pieces)[i] == Strip(pieces[j]);
    ConvertFails(CsvPieces(pieces), i);
  }

  /** Comma-separated decimals with one piece holding a non-numeric
      character inserted anywhere (as in `"1,abc,2"`) are rejected as a
      whole. */
  lemma NonNumberRejected(ids: seq<int>, k: nat, piece: string, m: nat)
    requires k <= |ids| && ',' !in piece
    requires m < |piece| && NonNumeric(piece[m])
    ensures SplitAdminIds(StrValue(Join(WithPiece(ids, k, piece), ','))).Failure?
  {
    var pieces := WithPiece(ids, k, piece);
    var s := Join(pieces, ',');
    SplitWithPiece(ids, k, piece);
    assert s != "" by {
      assert |Split(s, ',')[k]| > 0;
    }
    NonNumberPiece(piece, m);
    CsvPiecesReject(pieces, k);
    assert SplitAdminIds(StrValue(s)) == ConvertItems(AsItems(CsvPieces(Split(s, ','))));
  }
}

=== FILE: dedupe.dfy ===
/** Time-to-live notification throttle (`bot/utils/dedupe.py`): two
    independent caches from a key to the time it last notified, each pruned
    lazily on access. `now` is the monotonic clock reading, in seconds. */
module Dedupe {

  const AlbumTtl: real := 10.0
  const DocumentNoticeTtl: real := 5.0

  /** The two module-level caches: albums by (chat, media group) and
      document-replace notices by (chat, user). */
  datatype Throttle = Throttle(
    seenMediaGroups: map<(int, string), real>,
    seenDocumentNotices: map<(int, int), real>)

  /** The throttle at process start. */
  const Fresh: Throttle := Throttle(map[], map[])

  /** `_cleanup`: drop exactly the entries at least `ttl` old. */
  function Cleanup<K(!new)>(cache: map<K, real>, ttl: real, now: real): (r: map<K, real>)
    ensures forall k :: k in r <==> k in cache && now - cache[k] < ttl
    ensures forall k :: k in r ==> r[k] == cache[k]
  {
    map k | k in cache && now - cache[k] < ttl :: cache[k]
  }

  /** The shared rule of both `should_notify_*` functions: notify exactly
      when the key has no entry younger than `ttl`; a notification records
      `now` for the key, a suppressed call leaves the key's time alone. */
  function ShouldNotify<K(!new)>(cache: map<K, real>, key: K, ttl: real, now: real): (r: (bool, map<K, real>))
    ensures r.0 <==> key !in cache || now - cache[key] >= ttl
    ensures r.0 ==> key in r.1 && r.1[key] == now
    ensures !r.0 ==> key in r.1 && r.1[key] == cache[key]
    ensures forall k :: k != key ==> (k in r.1 <==> k in cache && now - cache[k] < ttl)
    ensures forall k :: k != key && k in r.1 ==> r.1[k] == cache[k]
  {
    var live := Cleanup(cache, ttl, now);
    if key in live && now - live[key] < ttl then (false, live)
    else (true, live[key := now])
  }

  /** `should_notify_album`; the document-notice cache is not touched. */
  function ShouldNotifyAlbum(t: Throttle, chatId: int, mediaGroupId: string, now: real, ttl: real := AlbumTtl)
    : (r: (bool, Throttle))
    ensures r.1.seenDocumentNotices == t.seenDocumentNotices
    ensures (r.0, r.1.seenMediaGroups) == ShouldNotify(t.seenMediaGroups, (chatId, mediaGroupId), ttl, now)
  {
    var (notify, cache) := ShouldNotify(t.seenMediaGroups, (chatId, mediaGroupId), ttl, now);
    (notify, t.(seenMediaGroups := cache))
  }

  /** `should_notify_document_update`; the album cache is not touched. */
  function ShouldNotifyDocumentUpdate(t: Throttle, chatId: int, userId: int, now: real, ttl: real := DocumentNoticeTtl)
    : (r: (bool, Throttle))
    ensures r.1.seenMediaGroups == t.seenMediaGroups
    ensures (r.0, r.1.seenDocumentNotices) == ShouldNotify(t.seenDocumentNotices, (chatId, userId), ttl, now)
  {
    var (notify, cache) := ShouldNotify(t.seenDocumentNotices, (chatId, userId), ttl, now);
    (notify, t.(seenDocumentNotices := cache))
  }

  /** A key seen for the first time notifies and records `now`. */
  lemma FirstCallNotifies<K(!new)>(cache: map<K, real>, key: K, ttl: real, now: real)
    requires key !in cache
    ensures ShouldNotify(cache, key, ttl, now).0
    ensures ShouldNotify(cache, key, ttl, now).1[key] == now
  {
  }

  /** Notify, suppress, notify: a second call inside the window is
      suppressed without moving the window, so a third call once `ttl` has
      passed since the first notifies again. */
  lemma {:induction false} WindowFromLastNotification<K(!new)>(cache: map<K, real>, key: K, ttl: real, t0: real, t1: real, t2: real)
    requires key !in cache
    requires t1 - t0 < ttl && t2 - t0 >= ttl
    ensures var (n0, c0) := ShouldNotify(cache, key, ttl, t0);
      var (n1, c1) := ShouldNotify(c0, key, ttl, t1);
      var (n2, c2) := ShouldNotify(c1, key, ttl, t2);
      n0 && !n1 && c1[key] == t0 && n2 && c2[key] == t2
  {
    var (n0, c0) := ShouldNotify(cache, key, ttl, t0);
    assert n0 && c0[key] == t0;
    var (n1, c1) := ShouldNotify(c0, key, ttl, t1);
    assert !n1 && c1[key] == t0;
  }

  /** Album warnings and document notices throttle independently: a call on
      one cache never changes what the other answers. */
  lemma CachesIndependent(t: Throttle, chatId: int, groupId: string, userId: int, now: real, later: real)
    ensures ShouldNotifyDocumentUpdate(ShouldNotifyAlbum(t, chatId, groupId, now).1, chatId, userId, later).0
         == ShouldNotifyDocumentUpdate(t, chatId, userId, later).0
    ensures ShouldNotifyAlbum(ShouldNotifyDocumentUpdate(t, chatId, userId, now).1, chatId, groupId, later).0
         == ShouldNotifyAlbum(t, chatId, groupId, later).0
  {
  }

  /** With the default five-second window: two document notices in quick
      succession give (true, false), and a third after the window gives true. */
  lemma DocumentNoticeDefaults(chatId: int, userId: int)
    ensures var (a, t1) := ShouldNotifyDocumentUpdate(Fresh, chatId, userId, 100.0);
      var (b, t2) := ShouldNotifyDocumentUpdate(t1, chatId, userId, 104.0);
      var (c, _) := ShouldNotifyDocumentUpdate(t2, chatId, userId, 105.0);
      a && !b && c
  {
    WindowFromLastNotification(Fresh.seenDocumentNotices, (chatId, userId), DocumentNoticeTtl, 100.0, 104.0, 105.0);
  }
}

=== FILE: deep_link.dfy ===
/** The `/start` payload (`bot/utils/deep_link.py`): take the command
    arguments, or else the rest of the message after its first word; strip
    it; return a dotted token as is and try to decode anything else.
    aiogram's `decode_payload` is the partial function `decode`. */
module DeepLink {
  import opened Wrappers
  import opened Text

  type Decoder = string -> Option<string>

  /** The first position at or after `i` that is not whitespace, or `|s|`. */
  function SkipSpace(s: string, i: nat): (j: nat)
    requires i <= |s|
    ensures i <= j <= |s|
    ensures forall m :: i <= m < j ==> IsSpace(s[m])
    ensures j < |s| ==> !IsSpace(s[j])
    decreases |s| - i
  {
    if i == |s| || !IsSpace(s[i]) then i else SkipSpace(s, i + 1)
  }

  /** The first position at or after `i` that is whitespace, or `|s|`. */
  function SkipWord(s: string, i: nat): (j: nat)
    requires i <= |s|
    ensures i <= j <= |s|
    ensures forall m :: i <= m < j ==> !IsSpace(s[m])
    ensures j < |s| ==> IsSpace(s[j])
    decreases |s| - i
  {
    if i == |s| || IsSpace(s[i]) then i else SkipWord(s, i + 1)
  }

  /** Positions `i < j < k` where a word at `i` is followed by whitespace at
      `j` and then by a second word at `k`. */
  predicate Resumes(s: string, i: int, j: int, k: int) {
    0 <= i < j < k < |s| && !IsSpace(s[i]) && IsSpace(s[j]) && !IsSpace(s[k])
  }

  /** `s` holds at most one word. */
  predicate AtMostOneWord(s: string) {
    forall i, j, k | 0 <= i < j < k < |s| :: !Resumes(s, i, j, k)
  }

  /** `p` is one word with whitespace around it and at least some after. */
  predicate WordThenSpace(p: string) {
    !IsBlank(p) && AtMostOneWord(p) && IsSpace(p[|p| - 1])
  }

  /** Whitespace up to `a`, a word up to `b`, whitespace up to `c`: the
      string holds a second word exactly when `c` is not its end, and then
      everything before `c` is the first word with its whitespace. */
  lemma SplitShape(s: string, a: nat, b: nat, c: nat)
    requires a <= b <= c <= |s|
    requires forall m :: 0 <= m < a ==> IsSpace(s[m])
    requires forall m :: a <= m < b ==> !IsSpace(s[m])
    requires forall m :: b <= m < c ==> IsSpace(s[m])
    requires a < |s| ==> !IsSpace(s[a])
    requires b < |s| ==> IsSpace(s[b])
    requires c < |s| ==> !IsSpace(s[c])
    ensures c == |s| <==> AtMostOneWord(s)
    ensures c < |s| ==> WordThenSpace(s[..c])
  {
    if c == |s| {
      forall i, j, k | 0 <= i < j < k < |s| && !IsSpace(s[i]) && IsSpace(s[j])
        ensures !Resumes(s, i, j, k)
      {
      }
    } else {
      assert Resumes(s, a, b, c);
      var p := s[..c];
      forall i, j, k | 0 <= i < j < k < |p| && !IsSpace(p[i]) && IsSpace(p[j])
        ensures !Resumes(p, i, j, k)
      {
        assert p[i] == s[i] && p[j] == s[j] && p[k] == s[k];
      }
      assert !IsSpace(p[a]);
      assert IsSpace(p[|p| - 1]);
    }
  }

  /** Python's `s.split(maxsplit=1)[1]` when the split has two parts: the
      rest of `s` after its first word and the whitespace that follows. */
  function AfterFirstWord(s: string): (r: Option<string>)
    ensures r.None? <==> AtMostOneWord(s)
    ensures r.Some? ==>
      && |r.value| > 0 && !IsSpace(r.value[0])
      && |r.value| < |s| && r.value == s[|s| - |r.value|..]
      && WordThenSpace(s[..|s| - |r.value|])
  {
    var a := SkipSpace(s, 0);
    var b := SkipWord(s, a);
    var c := SkipSpace(s, b);
    SplitShape(s, a, b, c);
    if c == |s| then None else Some(s[c..])
  }

  /** Cleaning of the raw token: strip it; a blank one is no token; a
      dotted one (a signed `header.payload.signature`) is kept as it is;
      anything else goes through the decoder, whose stripped, non-blank
      result wins, and whose failure keeps the token. */
  function TokenFromRaw(raw: Option<string>, decode: Decoder): (r: Option<string>)
    ensures r.Some? ==> |r.value| > 0 && Trimmed(r.value)
    ensures raw.None? ==> r.None?
    ensures raw.Some? && IsBlank(raw.value) ==> r.None?
    ensures raw.Some? && '.' in Strip(raw.value) ==> r == Some(Strip(raw.value))
    ensures raw.Some? && !IsBlank(raw.value) && '.' !in Strip(raw.value) ==>
      r == match decode(Strip(raw.value))
           case None => Some(Strip(raw.value))
           case Some(d) => if IsBlank(d) then None else Some(Strip(d))
  {
    match raw
    case None => None
    case Some(raw) =>
      var token := Strip(raw);
      if |token| == 0 then None
      else if '.' in token then Some(token)
      else match decode(token)
        case None => Some(token)
        case Some(decoded) =>
          var d := Strip(decoded);
          if |d| == 0 then None else Some(d)
  }

  /** `extract_start_token`: the token candidate is the command arguments
      when given, otherwise the remainder of a non-empty message text after
      its first word; it is then cleaned by `TokenFromRaw`. */
  function ExtractStartToken(messageText: Option<string>, commandArgs: Option<string>, decode: Decoder): (r: Option<string>)
    ensures commandArgs.Some? ==> r == TokenFromRaw(commandArgs, decode)
    ensures commandArgs.None? && messageText.Some? && |messageText.value| > 0 ==>
      r == TokenFromRaw(AfterFirstWord(messageText.value), decode)
    ensures commandArgs.None? && (messageText.None? || |messageText.value| == 0) ==> r.None?
  {
    var raw :=
      if commandArgs.Some? then commandArgs
      else if messageText.Some? && |messageText.value| > 0 then AfterFirstWord(messageText.value)
      else None;
    TokenFromRaw(raw, decode)
  }

  /** Given arguments, the message text plays no part. */
  lemma ArgumentsWin(messageText: Option<string>, otherText: Option<string>, args: string, decode: Decoder)
    ensures ExtractStartToken(messageText, Some(args), decode) == ExtractStartToken(otherText, Some(args), decode)
  {
  }

  /** `/start a.b.c` splits into the command and `a.b.c`. */
  lemma StartCommandRemainder()
    ensures AfterFirstWord("/start a.b.c") == Some("a.b.c")
  {
    var s := "/start a.b.c";
    assert SkipSpace(s, 0) == 0;
    assert SkipWord(s, 6) == 6;
    assert SkipWord(s, 5) == 6;
    assert SkipWord(s, 4) == 6;
    assert SkipWord(s, 3) == 6;
    assert SkipWord(s, 2) == 6;
    assert SkipWord(s, 1) == 6;
    assert SkipWord(s, 0) == 6;
    assert SkipSpace(s, 7) == 7;
    assert SkipSpace(s, 6) == 7;
    assert s[7..] == "a.b.c";
  }

  /** A dotted token (a signed token is `header.payload.signature`) comes
      back stripped and not decoded. */
  lemma DottedArgument(messageText: Option<string>, args: string, decode: Decoder)
    requires '.' in args && Trimmed(args)
    ensures ExtractStartToken(messageText, Some(args), decode) == Some(args)
  {
    StripTrimmed(args);
  }

  /** A token without a dot is decoded, and the stripped decoding is the
      result when it is not blank. */
  lemma EncodedArgument(messageText: Option<string>, encoded: string, decode: Decoder, decoded: string)
    requires |encoded| > 0 && Trimmed(encoded) && '.' !in encoded
    requires decode(encoded) == Some(decoded) && !IsBlank(decoded)
    ensures ExtractStartToken(messageText, Some(encoded), decode) == Some(Strip(decoded))
  {
    StripTrimmed(encoded);
  }

  /** A token the decoder rejects is kept as it is. */
  lemma UndecodableArgument(messageText: Option<string>, token: string, decode: Decoder)
    requires |token| > 0 && Trimmed(token) && '.' !in token && decode(token).None?
    ensures ExtractStartToken(messageText, Some(token), decode) == Some(token)
  {
    StripTrimmed(token);
  }

  /** `/start a.b.c` without parsed arguments yields `a.b.c`. */
  lemma StartTextExample(decode: Decoder)
    ensures ExtractStartToken(Some("/start a.b.c"), None, decode) == Some("a.b.c")
  {
    StartCommandRemainder();
    assert "a.b.c"[1] == '.';
    DottedArgument(None, "a.b.c", decode);
  }

  /** A blank payload gives nothing. */
  lemma BlankArgument(messageText: Option<string>, args: string, decode: Decoder)
    requires IsBlank(args)
    ensures ExtractStartToken(messageText, Some(args), decode).None?
  {
  }
}

=== FILE: models.dfy ===
/** The persisted records: users (`bot/models/user.py`), posts
    (`bot/models/post.py`) and pages (`bot/models/page.py`). Timestamps are
    `real` seconds supplied by the caller. */
module Models {
  import opened Wrappers

  /** The four registration states of a user. */
  datatype RegistrationStatus = StatusNone | TokenVerified | SubscriptionVerified | Confirmed

  /** A bot user keyed by Telegram id; `editingPageKey` is the page an admin
      is currently rewriting, if any. */
  datatype User = User(
    tgId: int,
    username: Option<string>,
    status: RegistrationStatus,
    editingPageKey: Option<string>)

  /** One rich-text markup span of a Telegram message. Its (de)serialisation
      is a library round trip, so it is kept as an opaque value. */
  datatype Entity = Entity(kind: string, offset: nat, length: nat)

  /** Lifecycle of a post; a new post is a draft. */
  datatype PostStatus = Draft | Sent | Canceled

  /** A stored post. `contentType` is the free-form column the renderer
      inspects ("text", "photo" or "document" when written by the drafting
      code); `id` is assigned by the table. */
  datatype Post = Post(
    id: nat,
    createdAt: real,
    createdBy: int,
    contentType: string,
    text: Option<string>,
    entities: Option<seq<Entity>>,
    fileId: Option<string>,
    caption: Option<string>,
    captionEntities: Option<seq<Entity>>,
    status: PostStatus,
    sentAt: Option<real>,
    sentCountSuccess: int,
    sentCountFailed: int)

  /** A static page edited by admins. */
  datatype Page = Page(key: string, content: string, updatedAt: real)

  /** Entity lists are stored and read back through a helper that turns an
      absent or empty list into `None` (`serialize_entities` /
      `deserialize_entities`). */
  function NormalizeEntities(e: Option<seq<Entity>>): (r: Option<seq<Entity>>)
    ensures r.Some? ==> |r.value| > 0 && e == r
    ensures e.Some? && |e.value| > 0 ==> r == e
  {
    if e.Some? && |e.value| > 0 then e else None
  }

  /** Normalising twice is normalising once: the read-back of a stored list is
      the stored list. */
  lemma NormalizeIdempotent(e: Option<seq<Entity>>)
    ensures NormalizeEntities(NormalizeEntities(e)) == NormalizeEntities(e)
  {
  }
}

=== FILE: page_editing.dfy ===
/** Which page an admin is rewriting (`bot/services/page_editing.py`): a
    per-user optional page key kept in the user store. */
module PageEditing {
  import opened Wrappers
  import opened Models
  import opened UserRepository

  /** `get_editing_key`: nothing for an unknown user, else the stored key. */
  function GetEditingKey(users: UserStore, tgId: int): (r: Option<string>)
    ensures tgId !in users ==> r.None?
    ensures tgId in users ==> r == users[tgId].editingPageKey
  {
    match GetByTgId(users, tgId)
    case None => None
    case Some(u) => u.editingPageKey
  }

  /** `start_editing`: an unknown user is first created with status NONE;
      an existing user keeps their username and status. */
  function StartEditing(users: UserStore, tgId: int, username: Option<string>, key: string): (r: UserStore)
    ensures r.Keys == users.Keys + {tgId}
    ensures tgId !in users ==> r[tgId] == User(tgId, username, StatusNone, Some(key))
    ensures tgId in users ==> r[tgId] == users[tgId].(editingPageKey := Some(key))
    ensures forall k :: k in users && k != tgId ==> r[k] == users[k]
    ensures ValidStore(users) ==> ValidStore(r)
  {
    var ensured := if tgId in users then users else Create(users, tgId, username, StatusNone);
    SetEditingPageKey(ensured, tgId, Some(key))
  }

  /** `cancel_editing`: clears the key; an unknown user is left absent. */
  function CancelEditing(users: UserStore, tgId: int): (r: UserStore)
    ensures tgId !in users ==> r == users
    ensures tgId in users ==> r.Keys == users.Keys && r[tgId] == users[tgId].(editingPageKey := None)
    ensures forall k :: k in users && k != tgId ==> r[k] == users[k]
    ensures ValidStore(users) ==> ValidStore(r)
  {
    if tgId !in users then users else SetEditingPageKey(users, tgId, None)
  }

  /** Starting an edit makes it the current one; cancelling clears it, and
      editing other users never disturbs this one. */
  lemma StartThenCancel(users: UserStore, tgId: int, username: Option<string>, key: string, other: int)
    requires other != tgId
    ensures GetEditingKey(StartEditing(users, tgId, username, key), tgId) == Some(key)
    ensures GetEditingKey(CancelEditing(StartEditing(users, tgId, username, key), tgId), tgId).None?
    ensures GetEditingKey(StartEditing(users, other, username, key), tgId) == GetEditingKey(users, tgId)
    ensures GetEditingKey(CancelEditing(users, other), tgId) == GetEditingKey(users, tgId)
  {
  }
}

=== FILE: pages.dfy ===
/** Static pages (`bot/services/pages.py`): reads treat blank content as
    unset, writes are an upsert. The page table is a map keyed by page key;
    `datetime.utcnow()` is the `now` parameter. */
module Pages {
  import opened Wrappers
  import opened Models
  import Text

  type PageStore = map<string, Page>

  const PageKeyFaq: string := "faq"
  const PageKeyContacts: string := "contacts"
  const PageKeySchedule: string := "schedule"
  const PageKeyPhoto: string := "photo"
  const DefaultPageMessage: string := "Эта страница пока не настроена."

  datatype PageResult = PageResult(key: string, content: Option<string>)

  /** Every page is stored under its own key. */
  predicate ValidPages(pages: PageStore) {
    forall k :: k in pages ==> pages[k].key == k
  }

  /** `get_page`: a missing page or one whose content is only whitespace
      has no content; otherwise the content comes back unstripped. */
  function GetPage(pages: PageStore, key: string): (r: PageResult)
    ensures r.key == key
    ensures r.content.None? <==> key !in pages || Text.IsBlank(pages[key].content)
    ensures r.content.Some? ==> r.content.value == pages[key].content
  {
    if key !in pages then PageResult(key, None)
    else if |Text.Strip(pages[key].content)| == 0 then PageResult(key, None)
    else PageResult(key, Some(pages[key].content))
  }

  /** `update_page`: creates the page when it is absent, otherwise replaces
      its content and update time; answers with the given content. */
  function UpdatePage(pages: PageStore, key: string, content: string, now: real): (r: (PageResult, PageStore))
    ensures r.0 == PageResult(key, Some(content))
    ensures r.1.Keys == pages.Keys + {key}
    ensures r.1[key].content == content && r.1[key].updatedAt == now
    ensures key in pages ==> r.1[key] == pages[key].(content := content, updatedAt := now)
    ensures key !in pages ==> r.1[key] == Page(key, content, now)
    ensures forall k :: k in pages && k != key ==> r.1[k] == pages[k]
    ensures ValidPages(pages) ==> ValidPages(r.1)
  {
    var page := if key in pages then pages[key].(content := content, updatedAt := now) else Page(key, content, now);
    (PageResult(key, Some(content)), pages[key := page])
  }

  /** Reading a page right after writing it gives the written content back,
      unless that content is blank. */
  lemma UpdateThenGet(pages: PageStore, key: string, content: string, now: real)
    ensures var after := UpdatePage(pages, key, content, now).1;
      GetPage(after, key).content == if Text.IsBlank(content) then None else Some(content)
  {
  }
}

=== FILE: post_repository.dfy ===
/** The post table (`bot/storage/post_repository.py`) as a sequence of rows
    in insertion order. Ids are handed out by the table, one past the last
    row, as a serial primary key would. */
module PostRepository {
  import opened Wrappers
  import opened Models

  type PostTable = seq<Post>

  /** The column values `create_draft` is called with. */
  datatype DraftFields = DraftFields(
    contentType: string,
    text: Option<string>,
    entities: Option<seq<Entity>>,
    fileId: Option<string>,
    caption: Option<string>,
    captionEntities: Option<seq<Entity>>)

  /** Row `i` carries id `i + 1`: ids are unique and serial. */
  predicate ValidTable(t: PostTable) {
    forall i :: 0 <= i < |t| ==> t[i].id == i + 1
  }

  /** An admin never has two posts in draft status. */
  predicate SingleDraftPerCreator(t: PostTable) {
    forall i, j :: 0 <= i < j < |t| && t[i].status == Draft && t[j].status == Draft ==>
      t[i].createdBy != t[j].createdBy
  }

  /** The row a draft of `a` is superseded into. */
  function Supersede(p: Post, a: int, now: real): Post {
    if p.createdBy == a && p.status == Draft then p.(status := Canceled, sentAt := Some(now)) else p
  }

  /** `create_draft`: cancel every draft of the creator (stamping `sent_at`),
      then insert a fresh draft with exactly the given column values. */
  function CreateDraft(t: PostTable, createdBy: int, fields: DraftFields, now: real): (r: (PostTable, Post))
    ensures |r.0| == |t| + 1 && r.0[|t|] == r.1
    ensures ValidTable(t) ==> ValidTable(r.0)
    ensures r.1.id == |t| + 1 && r.1.createdBy == createdBy && r.1.createdAt == now
    ensures r.1.contentType == fields.contentType && r.1.text == fields.text
    ensures r.1.entities == fields.entities && r.1.fileId == fields.fileId
    ensures r.1.caption == fields.caption && r.1.captionEntities == fields.captionEntities
    ensures r.1.status == Draft && r.1.sentAt.None?
    ensures r.1.sentCountSuccess == 0 && r.1.sentCountFailed == 0
    // earlier drafts of the creator are canceled and stamped
    ensures forall i :: 0 <= i < |t| && t[i].createdBy == createdBy && t[i].status == Draft ==>
      r.0[i] == t[i].(status := Canceled, sentAt := Some(now))
    // everything else is untouched
    ensures forall i :: 0 <= i < |t| && !(t[i].createdBy == createdBy && t[i].status == Draft) ==>
      r.0[i] == t[i]
    // the new post is the creator's only draft
    ensures forall i :: 0 <= i < |r.0| && r.0[i].createdBy == createdBy && r.0[i].status == Draft ==>
      i == |t|
  {
    var superseded := seq(|t|, i requires 0 <= i < |t| => Supersede(t[i], createdBy, now));
    var post := Post(
      id := |t| + 1, createdAt := now, createdBy := createdBy,
      contentType := fields.contentType, text := fields.text, entities := fields.entities,
      fileId := fields.fileId, caption := fields.caption, captionEntities := fields.captionEntities,
      status := Draft, sentAt := None, sentCountSuccess := 0, sentCountFailed := 0);
    (superseded + [post], post)
  }

  /** `get`: the row with the given id, if any. */
  function Get(t: PostTable, id: int): (r: Option<Post>)
    ensures r.Some? ==> r.value in t && r.value.id == id
    ensures r.None? <==> forall i :: 0 <= i < |t| ==> t[i].id != id
  {
    if |t| == 0 then None
    else if t[0].id == id then Some(t[0])
    else
      var rest := Get(t[1..], id);
      assert forall i :: 1 <= i < |t| ==> t[i] == t[1..][i - 1];
      rest
  }

  /** In a valid table the row with id `k` is at position `k - 1`. */
  lemma GetValid(t: PostTable, id: int)
    requires ValidTable(t)
    ensures 1 <= id <= |t| ==> Get(t, id) == Some(t[id - 1])
    ensures !(1 <= id <= |t|) ==> Get(t, id).None?
  {
    if 1 <= id <= |t| {
      GetFirst(t, id, id - 1);
    }
  }

  lemma {:induction false} GetFirst(t: PostTable, id: int, k: nat)
    requires k < |t| && t[k].id == id
    requires forall i :: 0 <= i < k ==> t[i].id != id
    ensures Get(t, id) == Some(t[k])
    decreases k
  {
    if k > 0 {
      GetFirst(t[1..], id, k - 1);
    }
  }

  /** `mark_sent`: the row(s) with the id become sent with the given stamp and
      counts, whatever their status was; all other rows are untouched. */
  function MarkSent(t: PostTable, id: int, sentAt: real, success: int, failed: int): (r: PostTable)
    ensures |r| == |t|
    ensures forall i :: 0 <= i < |t| && t[i].id == id ==>
      r[i] == t[i].(status := Sent, sentAt := Some(sentAt), sentCountSuccess := success, sentCountFailed := failed)
    ensures forall i :: 0 <= i < |t| && t[i].id != id ==> r[i] == t[i]
  {
    seq(|t|, i requires 0 <= i < |t| =>
      if t[i].id == id
      then t[i].(status := Sent, sentAt := Some(sentAt), sentCountSuccess := success, sentCountFailed := failed)
      else t[i])
  }

  /** `mark_canceled`: the row(s) with the id become canceled, stamped `now`. */
  function MarkCanceled(t: PostTable, id: int, now: real): (r: PostTable)
    ensures |r| == |t|
    ensures forall i :: 0 <= i < |t| && t[i].id == id ==> r[i] == t[i].(status := Canceled, sentAt := Some(now))
    ensures forall i :: 0 <= i < |t| && t[i].id != id ==> r[i] == t[i]
  {
    seq(|t|, i requires 0 <= i < |t| =>
      if t[i].id == id then t[i].(status := Canceled, sentAt := Some(now)) else t[i])
  }

  /** Reading a post back after `mark_sent` shows the new status and counts. */
  lemma MarkSentThenGet(t: PostTable, id: int, sentAt: real, success: int, failed: int)
    requires ValidTable(t) && Get(t, id).Some?
    ensures ValidTable(MarkSent(t, id, sentAt, success, failed))
    ensures var p := Get(MarkSent(t, id, sentAt, success, failed), id);
      && p.Some? && p.value.status == Sent && p.value.sentAt == Some(sentAt)
      && p.value.sentCountSuccess == success && p.value.sentCountFailed == failed
  {
    var r := MarkSent(t, id, sentAt, success, failed);
    GetValid(t, id);
    GetValid(r, id);
  }

  /** The single-draft invariant survives every write of the repository. */
  lemma {:induction false} CreateDraftKeepsSingleDraft(t: PostTable, createdBy: int, fields: DraftFields, now: real)
    requires SingleDraftPerCreator(t)
    ensures SingleDraftPerCreator(CreateDraft(t, createdBy, fields, now).0)
  {
    var r := CreateDraft(t, createdBy, fields, now).0;
    forall i, j | 0 <= i < j < |r| && r[i].status == Draft && r[j].status == Draft
      ensures r[i].createdBy != r[j].createdBy
    {
      if j < |t| {
        assert r[i] == t[i] && r[j] == t[j];
      } else {
        assert r[i] == t[i];
      }
    }
  }

  lemma {:induction false} MarkSentKeepsSingleDraft(t: PostTable, id: int, sentAt: real, success: int, failed: int)
    requires SingleDraftPerCreator(t)
    ensures SingleDraftPerCreator(MarkSent(t, id, sentAt, success, failed))
  {
    var r := MarkSent(t, id, sentAt, success, failed);
    forall i, j | 0 <= i < j < |r| && r[i].status == Draft && r[j].status == Draft
      ensures r[i].createdBy != r[j].createdBy
    {
      assert r[i] == t[i] && r[j] == t[j];
    }
  }

  lemma {:induction false} MarkCanceledKeepsSingleDraft(t: PostTable, id: int, now: real)
    requires SingleDraftPerCreator(t)
    ensures SingleDraftPerCreator(MarkCanceled(t, id, now))
  {
    var r := MarkCanceled(t, id, now);
    forall i, j | 0 <= i < j < |r| && r[i].status == Draft && r[j].status == Draft
      ensures r[i].createdBy != r[j].createdBy
    {
      assert r[i] == t[i] && r[j] == t[j];
    }
  }

  /** Newest first. */
  predicate NewestFirst(s: seq<Post>) {
    forall i, j :: 0 <= i < j < |s| ==> s[i].createdAt >= s[j].createdAt
  }

  function InsertNewestFirst(p: Post, s: seq<Post>): (r: seq<Post>)
    requires NewestFirst(s)
    ensures NewestFirst(r)
    ensures |r| == |s| + 1
    ensures r[0] == p || (|s| > 0 && r[0] == s[0])
    ensures multiset(r) == multiset(s) + multiset{p}
  {
    if |s| == 0 then [p]
    else if p.createdAt >= s[0].createdAt then [p] + s
    else
      var rest := InsertNewestFirst(p, s[1..]);
      assert s == [s[0]] + s[1..];
      [s[0]] + rest
  }

  /** The rows ordered by `created_at` descending. */
  function SortNewestFirst(s: seq<Post>): (r: seq<Post>)
    ensures NewestFirst(r)
    ensures |r| == |s|
    ensures multiset(r) == multiset(s)
  {
    if |s| == 0 then []
    else
      assert s == [s[0]] + s[1..];
      InsertNewestFirst(s[0], SortNewestFirst(s[1..]))
  }

  /** No post of `t` left out of `r` is newer than a post in `r`. */
  predicate NoNewerLeftOut(t: seq<Post>, r: seq<Post>) {
    forall p, i :: p in multiset(t) - multiset(r) && 0 <= i < |r| ==> p.createdAt <= r[i].createdAt
  }

  /** Cutting a newest-first sequence: everything after the cut is no newer
      than anything before it. */
  lemma CutOrder(s: seq<Post>, k: nat, i: nat, j: nat)
    requires NewestFirst(s) && i < k && k + j < |s|
    ensures s[..k][i].createdAt >= s[k..][j].createdAt
  {
    assert s[..k][i] == s[i] && s[k..][j] == s[k + j];
  }

  lemma CutNewestFirst(s: seq<Post>, t: seq<Post>, k: nat)
    requires NewestFirst(s) && k <= |s| && multiset(s) == multiset(t)
    ensures multiset(s[..k]) <= multiset(t)
    ensures NoNewerLeftOut(t, s[..k])
  {
    var front, back := s[..k], s[k..];
    assert s == front + back;
    assert multiset(t) - multiset(front) == multiset(back);
    forall p, i | p in multiset(t) - multiset(front) && 0 <= i < k
      ensures p.createdAt <= front[i].createdAt
    {
      assert p in back;
      var j :| 0 <= j < |back| && back[j] == p;
      CutOrder(s, k, i, j);
    }
  }

  /** `list_recent`: at most `limit` posts, newest first, and no post left
      out is newer than one returned. */
  function ListRecent(t: PostTable, limit: nat): (r: seq<Post>)
    ensures |r| == if limit < |t| then limit else |t|
    ensures NewestFirst(r)
    ensures multiset(r) <= multiset(t)
    ensures NoNewerLeftOut(t, r)
  {
    var sorted := SortNewestFirst(t);
    var k := if limit < |t| then limit else |t|;
    CutNewestFirst(sorted, t, k);
    sorted[..k]
  }
}

=== FILE: post_service.dfy ===
/** Drafting a post from an admin's message and rendering a stored post into
    one outbound send (`bot/services/post_service.py`). */
module PostService {
  import opened Wrappers
  import opened Models
  import opened PostRepository

  /** One size of a Telegram photo; the list is ordered smallest first. */
  datatype PhotoSize = PhotoSize(fileId: string)

  datatype Document = Document(fileId: string)

  /** The parts of an incoming Telegram message the drafting code reads. An
      absent photo list is the empty list. */
  datatype Message = Message(
    text: Option<string>,
    entities: Option<seq<Entity>>,
    photo: seq<PhotoSize>,
    document: Option<Document>,
    caption: Option<string>,
    captionEntities: Option<seq<Entity>>)

  /** Raised for a message that is neither text, photo nor document. */
  datatype DraftError = UnsupportedPostContent

  /** Python truthiness of the three content slots. */
  predicate HasText(m: Message) {
    m.text.Some? && |m.text.value| > 0
  }

  predicate HasPhoto(m: Message) {
    |m.photo| > 0
  }

  predicate HasDocument(m: Message) {
    m.document.Some?
  }

  /** The column values of the draft a message becomes: text wins over photo,
      photo over document; anything else is rejected. */
  function ClassifyMessage(m: Message): (r: Result<DraftFields, DraftError>)
    ensures r.Failure? <==> !HasText(m) && !HasPhoto(m) && !HasDocument(m)
    ensures r.Success? ==> r.value.contentType in {"text", "photo", "document"}
    ensures r.Success? && r.value.contentType == "text" <==> HasText(m)
    ensures r.Success? && r.value.contentType == "photo" <==> !HasText(m) && HasPhoto(m)
    ensures r.Success? && r.value.contentType == "document" <==> !HasText(m) && !HasPhoto(m) && HasDocument(m)
    ensures r.Success? && r.value.contentType == "text" ==>
      && r.value.text == m.text && r.value.entities == NormalizeEntities(m.entities)
      && r.value.fileId.None? && r.value.caption.None? && r.value.captionEntities.None?
    ensures r.Success? && r.value.contentType != "text" ==>
      && r.value.text.None? && r.value.entities.None?
      && r.value.caption == Some(m.caption.GetOr(""))
      && r.value.captionEntities == NormalizeEntities(m.captionEntities)
    // a photo draft keeps the largest (last) size
    ensures r.Success? && r.value.contentType == "photo" ==> r.value.fileId == Some(m.photo[|m.photo| - 1].fileId)
    ensures r.Success? && r.value.contentType == "document" ==> r.value.fileId == Some(m.document.value.fileId)
  {
    if HasText(m) then
      Success(DraftFields("text", m.text, NormalizeEntities(m.entities), None, None, None))
    else if HasPhoto(m) then
      Success(DraftFields("photo", None, None, Some(m.photo[|m.photo| - 1].fileId),
                          Some(m.caption.GetOr("")), NormalizeEntities(m.captionEntities)))
    else if HasDocument(m) then
      Success(DraftFields("document", None, None, Some(m.document.value.fileId),
                          Some(m.caption.GetOr("")), NormalizeEntities(m.captionEntities)))
    else
      Failure(UnsupportedPostContent)
  }

  /** `create_draft_from_message`: classify, then supersede the admin's
      earlier drafts and insert the new one in one transaction. A rejected
      message writes nothing. */
  function CreateDraftFromMessage(t: PostTable, adminId: int, m: Message, now: real)
    : (r: Result<(PostTable, Post), DraftError>)
    ensures r.Failure? <==> ClassifyMessage(m).Failure?
    ensures r.Success? ==>
      && r.value.1.createdBy == adminId && r.value.1.status == Draft
      && |r.value.0| == |t| + 1 && r.value.0[|t|] == r.value.1
      && (forall i :: 0 <= i < |r.value.0| && r.value.0[i].createdBy == adminId && r.value.0[i].status == Draft ==>
            i == |t|)
    // the stored row is the classified message's columns, through `create_draft`
    ensures r.Success? ==> r.value == CreateDraft(t, adminId, ClassifyMessage(m).value, now)
    // the admin's earlier drafts are superseded and every other row is untouched
    ensures r.Success? ==> forall i :: 0 <= i < |t| && t[i].createdBy == adminId && t[i].status == Draft ==>
      r.value.0[i] == t[i].(status := Canceled, sentAt := Some(now))
    ensures r.Success? ==> forall i :: 0 <= i < |t| && !(t[i].createdBy == adminId && t[i].status == Draft) ==>
      r.value.0[i] == t[i]
  {
    var fields :- ClassifyMessage(m);
    Success(CreateDraft(t, adminId, fields, now))
  }

  /** The one send a stored post turns into. A photo or document always has
      a non-empty file id. */
  datatype PostRender =
    | RenderPhoto(fileId: string, caption: string, captionEntities: Option<seq<Entity>>)
    | RenderDocument(fileId: string, caption: string, captionEntities: Option<seq<Entity>>)
    | RenderText(text: string, entities: Option<seq<Entity>>)

  /** A present, non-empty file id (Python truthiness of `post.file_id`). */
  predicate HasFileId(p: Post) {
    p.fileId.Some? && |p.fileId.value| > 0
  }

  /** `render_post`: photo or document only with a file id, every other row
      falls back to text (empty if the post has none). */
  function RenderPost(p: Post): (r: PostRender)
    ensures r.RenderPhoto? <==> p.contentType == "photo" && HasFileId(p)
    ensures r.RenderDocument? <==> p.contentType == "document" && HasFileId(p)
    ensures !r.RenderText? ==>
      && |r.fileId| > 0 && Some(r.fileId) == p.fileId
      && r.caption == p.caption.GetOr("")
      && r.captionEntities == NormalizeEntities(p.captionEntities)
    ensures r.RenderText? ==> r.text == p.text.GetOr("") && r.entities == NormalizeEntities(p.entities)
  {
    if p.contentType == "photo" && HasFileId(p) then
      RenderPhoto(p.fileId.value, p.caption.GetOr(""), NormalizeEntities(p.captionEntities))
    else if p.contentType == "document" && HasFileId(p) then
      RenderDocument(p.fileId.value, p.caption.GetOr(""), NormalizeEntities(p.captionEntities))
    else
      RenderText(p.text.GetOr(""), NormalizeEntities(p.entities))
  }

  /** The render a message's content is expected to come back as. */
  function ExpectedRender(m: Message): PostRender
    requires HasText(m) || HasPhoto(m) || HasDocument(m)
  {
    if HasText(m) then RenderText(m.text.value, NormalizeEntities(m.entities))
    else if HasPhoto(m) then
      RenderPhoto(m.photo[|m.photo| - 1].fileId, m.caption.GetOr(""), NormalizeEntities(m.captionEntities))
    else RenderDocument(m.document.value.fileId, m.caption.GetOr(""), NormalizeEntities(m.captionEntities))
  }

  /** Round trip: a draft created from a supported message, read back from
      the table by its id and rendered, shows the message's own content. */
  lemma DraftRenderRoundTrip(t: PostTable, adminId: int, m: Message, now: real)
    requires ValidTable(t)
    requires HasText(m) || HasPhoto(m) || HasDocument(m)
    requires !HasText(m) && HasPhoto(m) ==> |m.photo[|m.photo| - 1].fileId| > 0
    requires !HasText(m) && !HasPhoto(m) && HasDocument(m) ==> |m.document.value.fileId| > 0
    ensures var r := CreateDraftFromMessage(t, adminId, m, now);
      && r.Success?
      && Get(r.value.0, r.value.1.id) == Some(r.value.1)
      && RenderPost(r.value.1) == ExpectedRender(m)
  {
    var r := CreateDraftFromMessage(t, adminId, m, now);
    GetValid(r.value.0, r.value.1.id);
  }

  /** One Telegram send call; `replyMarkup` is opaque and passed through. */
  datatype SendCall<M> =
    | SendPhoto(chatId: int, photo: string, caption: string, captionEntities: Option<seq<Entity>>, replyMarkup: Option<M>)
    | SendDocument(chatId: int, document: string, caption: string, captionEntities: Option<seq<Entity>>, replyMarkup: Option<M>)
    | SendMessage(chatId: int, text: string, entities: Option<seq<Entity>>, replyMarkup: Option<M>)

  /** `render_post_to_chat`: exactly one send, of the render's kind, to the
      given chat, carrying the render's content and the caller's markup. */
  function RenderPostToChat<M>(chatId: int, p: Post, replyMarkup: Option<M>): (c: SendCall<M>)
    ensures c.chatId == chatId && c.replyMarkup == replyMarkup
    ensures c.SendPhoto? <==> RenderPost(p).RenderPhoto?
    ensures c.SendDocument? <==> RenderPost(p).RenderDocument?
    ensures c.SendPhoto? ==>
      c.photo == RenderPost(p).fileId && c.caption == RenderPost(p).caption && c.captionEntities == RenderPost(p).captionEntities
    ensures c.SendDocument? ==>
      c.document == RenderPost(p).fileId && c.caption == RenderPost(p).caption && c.captionEntities == RenderPost(p).captionEntities
    ensures c.SendMessage? ==> c.text == RenderPost(p).text && c.entities == RenderPost(p).entities
  {
    match RenderPost(p)
    case RenderPhoto(f, cap, ce) => SendPhoto(chatId, f, cap, ce, replyMarkup)
    case RenderDocument(f, cap, ce) => SendDocument(chatId, f, cap, ce, replyMarkup)
    case RenderText(txt, e) => SendMessage(chatId, txt, e, replyMarkup)
  }
}

=== FILE: registration.dfy ===
/** `/start` handling (`bot/services/registration.py`): make sure the user
    exists, then move their registration status according to the start
    token. The token verifier is a parameter. */
module Registration {
  import opened Wrappers
  import opened Models
  import opened UserRepository
  import TokenVerifier

  datatype StartResult = StartResult(
    previousStatus: RegistrationStatus,
    currentStatus: RegistrationStatus,
    tokenProvided: bool,
    tokenValid: Option<bool>)

  /** `_ensure_user`: an unknown user is created with status NONE; a known
      user only gets the new username. */
  function EnsureUser(users: UserStore, tgId: int, username: Option<string>): (r: UserStore)
    ensures ValidStore(users) ==> ValidStore(r)
    ensures r.Keys == users.Keys + {tgId}
    ensures tgId !in users ==> r[tgId] == User(tgId, username, StatusNone, None)
    ensures tgId in users ==> r[tgId] == users[tgId].(username := username)
    ensures forall k :: k in users && k != tgId ==> r[k] == users[k]
  {
    if tgId !in users then Create(users, tgId, username, StatusNone)
    else UpdateUsername(users, tgId, username)
  }

  /** `handle_start`. Without a token the status is reset to NONE. With a
      valid token NONE and TOKEN_VERIFIED become TOKEN_VERIFIED while later
      states are kept; an invalid token changes nothing. */
  function HandleStart(users: UserStore, tgId: int, username: Option<string>, token: Option<string>, isValid: string -> bool)
    : (r: (StartResult, UserStore))
    ensures var prior := if tgId in users then users[tgId].status else StatusNone;
      && r.0.previousStatus == prior
      && r.0.tokenProvided == token.Some?
      && (token.None? ==> r.0.currentStatus == StatusNone && r.0.tokenValid.None?)
      && (token.Some? ==> r.0.tokenValid == Some(isValid(token.value)))
      && (token.Some? && isValid(token.value) && prior in {StatusNone, TokenVerified} ==> r.0.currentStatus == TokenVerified)
      && (token.Some? && isValid(token.value) && prior in {SubscriptionVerified, Confirmed} ==> r.0.currentStatus == prior)
      && (token.Some? && !isValid(token.value) ==> r.0.currentStatus == prior)
    ensures r.1.Keys == users.Keys + {tgId}
    ensures r.1[tgId].status == r.0.currentStatus && r.1[tgId].username == username
    ensures tgId in users ==> r.1[tgId].editingPageKey == users[tgId].editingPageKey
    ensures tgId !in users ==> r.1[tgId] == User(tgId, username, r.0.currentStatus, None)
    ensures forall k :: k in users && k != tgId ==> r.1[k] == users[k]
    ensures ValidStore(users) ==> ValidStore(r.1)
  {
    var ensured := EnsureUser(users, tgId, username);
    var previous := ensured[tgId].status;
    if token.None? then
      var updated := SetStatus(ensured, tgId, StatusNone);
      (StartResult(previous, StatusNone, false, None), updated)
    else
      var valid := isValid(token.value);
      var updated :=
        if valid && previous in {StatusNone, TokenVerified} then SetStatus(ensured, tgId, TokenVerified)
        else ensured;
      (StartResult(previous, updated[tgId].status, true, Some(valid)), updated)
  }

  /** Repeating the same `/start` changes nothing more. */
  lemma HandleStartIdempotent(users: UserStore, tgId: int, username: Option<string>, token: Option<string>, isValid: string -> bool)
    ensures var once := HandleStart(users, tgId, username, token, isValid).1;
      HandleStart(once, tgId, username, token, isValid).1 == once
  {
    var once := HandleStart(users, tgId, username, token, isValid).1;
    var twice := HandleStart(once, tgId, username, token, isValid).1;
    assert twice.Keys == once.Keys;
    assert twice[tgId] == once[tgId];
  }

  /** With the stub verifier: a "TEST_" token verifies a new user, and a
      later `/start` without a token drops even a confirmed user back to
      NONE. */
  lemma StubStartFlow(users: UserStore, tgId: int, username: Option<string>)
    requires tgId !in users
    ensures var (r, after) := HandleStart(users, tgId, username, Some("TEST_1"), TokenVerifier.StubIsValid);
      r.previousStatus == StatusNone && r.currentStatus == TokenVerified && r.tokenValid == Some(true)
    ensures var confirmed := users[tgId := User(tgId, username, Confirmed, None)];
      var (r, _) := HandleStart(confirmed, tgId, username, None, TokenVerifier.StubIsValid);
      r.previousStatus == Confirmed && r.currentStatus == StatusNone && !r.tokenProvided
  {
    assert TokenVerifier.StubIsValid("TEST_1") by {
      assert "TEST_1"[..5] == "TEST_";
    }
  }
}

=== FILE: subscription_channels.dfy ===
/** The text and buttons that ask a user to join the required channels
    (`bot/services/subscription_channels.py`). */
module SubscriptionChannels {
  import opened Wrappers
  import opened Text

  /** `SubscriptionChannelsPresentation`. */
  datatype Presentation = Presentation(messageText: string, links: seq<string>)

  const BaseText: string := "Подпишись на обязательные каналы:"
  const ChannelPrefix: string := "Канал: "

  /** `has_links`. */
  predicate HasLinks(p: Presentation) {
    |p.links| > 0
  }

  /** The fallback line naming one channel by its id. */
  function ChannelLine(channelId: int): (line: string)
    ensures |line| > |ChannelPrefix| && line[..|ChannelPrefix|] == ChannelPrefix
    ensures '\n' !in line
  {
    assert '\n' !in ChannelPrefix;
    ChannelPrefix + IntToDecimal(channelId)
  }

  function ChannelLines(channelIds: seq<int>): (lines: seq<string>)
    ensures |lines| == |channelIds|
    ensures forall i :: 0 <= i < |lines| ==> lines[i] == ChannelLine(channelIds[i])
  {
    seq(|channelIds|, i requires 0 <= i < |channelIds| => ChannelLine(channelIds[i]))
  }

  /** `build_subscription_channels_presentation`: link buttons when there is
      one link per channel; otherwise the bare prompt when there are no
      channels, or the prompt, a blank line and one line per channel id. */
  function BuildPresentation(channelIds: seq<int>, channelLinks: seq<string>): (r: Presentation)
    ensures |channelLinks| > 0 && |channelLinks| == |channelIds| ==> r == Presentation(BaseText, channelLinks)
    ensures !(|channelLinks| > 0 && |channelLinks| == |channelIds|) ==> r.links == []
    ensures !(|channelLinks| > 0 && |channelLinks| == |channelIds|) && |channelIds| == 0 ==> r.messageText == BaseText
    ensures |channelIds| > 0 ==> |r.messageText| >= |BaseText| && r.messageText[..|BaseText|] == BaseText
  {
    if |channelLinks| > 0 && |channelLinks| == |channelIds| then
      Presentation(BaseText, channelLinks)
    else if |channelIds| == 0 then
      Presentation(BaseText, [])
    else
      var text := Join([BaseText, ""] + ChannelLines(channelIds), '\n');
      JoinStartsWithFirst([BaseText, ""] + ChannelLines(channelIds), '\n');
      Presentation(text, [])
  }

  /** A join starts with its first piece. */
  lemma JoinStartsWithFirst(pieces: seq<string>, sep: char)
    requires |pieces| >= 1
    ensures |Join(pieces, sep)| >= |pieces[0]| && Join(pieces, sep)[..|pieces[0]|] == pieces[0]
  {
    if |pieces| > 1 {
      assert Join(pieces, sep) == pieces[0] + ([sep] + Join(pieces[1..], sep));
    }
  }

  /** Buttons are shown exactly when there is one link per required channel. */
  lemma HasLinksIff(channelIds: seq<int>, channelLinks: seq<string>)
    ensures HasLinks(BuildPresentation(channelIds, channelLinks)) <==> |channelLinks| > 0 && |channelLinks| == |channelIds|
  {
  }

  /** In the fallback the text splits on newlines into the prompt, a blank
      line and one `Канал: <id>` line per channel, in order. */
  lemma FallbackLines(channelIds: seq<int>, channelLinks: seq<string>)
    requires !(|channelLinks| > 0 && |channelLinks| == |channelIds|) && |channelIds| > 0
    ensures Split(BuildPresentation(channelIds, channelLinks).messageText, '\n') == [BaseText, ""] + ChannelLines(channelIds)
  {
    var pieces := [BaseText, ""] + ChannelLines(channelIds);
    assert '\n' !in BaseText;
    forall i | 0 <= i < |pieces| ensures '\n' !in pieces[i] {
      if i >= 2 {
        assert pieces[i] == ChannelLine(channelIds[i - 2]);
      }
    }
    SplitJoin(pieces, '\n');
  }

  /** Each fallback line gives back its channel id. */
  lemma ChannelLineRoundTrip(channelId: int)
    ensures ParseInt(ChannelLine(channelId)[|ChannelPrefix|..]) == Some(channelId)
  {
    assert ChannelLine(channelId)[|ChannelPrefix|..] == IntToDecimal(channelId);
    ParseIntOfDecimal(channelId);
  }
}

=== FILE: subscription_checker.dfy ===
/** The subscription check (`bot/services/subscription_checker.py`): a
    per-user rate gate, then an in-order membership lookup over every
    required channel that ends in CONFIRMED. The rate-limit dictionary is
    explicit state, `time.monotonic()` is the `now` parameter and
    `get_chat_member` is an oracle. */
module SubscriptionChecker {
  import opened Wrappers
  import opened Models
  import opened UserRepository

  const RateLimitSeconds: real := 3.0

  const UnavailableMessage: string := "Регистрация временно недоступна. Попробуй позже."
  const CannotCheckMessage: string := "Не могу проверить подписку. Боту нужны права администратора в канале."

  datatype MemberStatus = Creator | Administrator | Member | Restricted | Left | Kicked

  /** What one `get_chat_member` call gives: a member status, one of the two
      errors the check reports (`TelegramForbiddenError`,
      `TelegramBadRequest`), or any other exception. */
  datatype Lookup = Found(status: MemberStatus) | Rejected | Crashed

  type MemberOracle = (int, int) -> Lookup

  /** The time of each user's last unthrottled check. */
  type LastChecks = map<int, real>

  datatype CheckResult = CheckResult(
    rateLimited: bool,
    eligible: bool,
    isMember: Option<bool>,
    confirmedNow: bool,
    errorMessage: Option<string>)

  /** A returned result with the stores it commits, or a propagated exception:
      the user-store transaction is rolled back but the rate-limit entry,
      written before it began, stays. */
  datatype CheckOutcome =
    | Returned(result: CheckResult, users: UserStore, lastChecks: LastChecks)
    | Raised(users: UserStore, lastChecks: LastChecks)

  /** Where the channel loop stopped: after every channel, or at the first
      channel that is not a membership. */
  datatype Scan = AllMembers | StoppedAt(index: nat, lookup: Lookup)

  predicate IsMembership(l: Lookup) {
    l.Found? && l.status in {Member, Administrator, Creator}
  }

  /** The channel loop: channels are asked in order and the first lookup
      that is not a membership ends it. */
  function ScanChannels(channels: seq<int>, tgId: int, lookup: MemberOracle): (r: Scan)
    ensures r.AllMembers? <==> forall i :: 0 <= i < |channels| ==> IsMembership(lookup(channels[i], tgId))
    ensures r.StoppedAt? ==>
      && r.index < |channels|
      && r.lookup == lookup(channels[r.index], tgId)
      && !IsMembership(r.lookup)
      && forall j :: 0 <= j < r.index ==> IsMembership(lookup(channels[j], tgId))
  {
    if |channels| == 0 then AllMembers
    else
      var first := lookup(channels[0], tgId);
      if !IsMembership(first) then StoppedAt(0, first)
      else match ScanChannels(channels[1..], tgId, lookup)
        case AllMembers => AllMembers
        case StoppedAt(i, l) => StoppedAt(i + 1, l)
  }

  /** The number of `get_chat_member` calls the loop makes. */
  function LookupsMade(channels: seq<int>, tgId: int, lookup: MemberOracle): (n: nat)
    ensures n <= |channels|
    ensures n < |channels| ==> 0 < n && !IsMembership(lookup(channels[n - 1], tgId))
    ensures forall j :: 0 <= j < n - 1 ==> IsMembership(lookup(channels[j], tgId))
  {
    match ScanChannels(channels, tgId, lookup)
    case AllMembers => |channels|
    case StoppedAt(i, _) => i + 1
  }

  function LastCheckOf(lastChecks: LastChecks, tgId: int): real {
    if tgId in lastChecks then lastChecks[tgId] else 0.0
  }

  predicate Eligible(s: RegistrationStatus) {
    s in {TokenVerified, SubscriptionVerified, Confirmed}
  }

  /** The check gets past the empty-channel guard and the rate gate. */
  predicate Unthrottled(channels: seq<int>, lastChecks: LastChecks, tgId: int, now: real) {
    |channels| > 0 && now - LastCheckOf(lastChecks, tgId) >= RateLimitSeconds
  }

  predicate Crashes(s: Scan) {
    s.StoppedAt? && s.lookup == Crashed
  }

  /** `check_subscription`. */
  function CheckSubscription(
    channels: seq<int>, users: UserStore, lastChecks: LastChecks,
    tgId: int, username: Option<string>, now: real, lookup: MemberOracle): (r: CheckOutcome)
    // No channels: an error, and neither store is touched.
    ensures |channels| == 0 ==>
      r == Returned(CheckResult(false, false, None, false, Some(UnavailableMessage)), users, lastChecks)
    // Within the window of the last check: throttled, nothing else changes.
    ensures |channels| > 0 && now - LastCheckOf(lastChecks, tgId) < RateLimitSeconds ==>
      r == Returned(CheckResult(true, false, None, false, None), users, lastChecks)
    // Otherwise `now` is recorded first, whatever follows.
    ensures Unthrottled(channels, lastChecks, tgId, now) ==> r.lastChecks == lastChecks[tgId := now]
    // The user store: an unknown user is created with status NONE; only
    // the status of this user can change, and only to CONFIRMED.
    ensures r.Returned? && Unthrottled(channels, lastChecks, tgId, now) ==>
      && r.users.Keys == users.Keys + {tgId}
      && (tgId !in users ==> r.users[tgId] == User(tgId, username, StatusNone, None))
      && (tgId in users ==> r.users[tgId].(status := users[tgId].status) == users[tgId])
      && (forall k :: k in users && k != tgId ==> r.users[k] == users[k])
    ensures r.Raised? ==> r.users == users
    // Past the gate the answer is never "rate limited".
    ensures r.Returned? && Unthrottled(channels, lastChecks, tgId, now) ==> !r.result.rateLimited
    // A user who is not in a verified state is denied, without a message.
    ensures Unthrottled(channels, lastChecks, tgId, now) && !(tgId in users && Eligible(users[tgId].status)) ==>
      r.Returned? && r.result == CheckResult(false, false, None, false, None)
    // A member of every channel gets a clean "member" answer, confirmed now
    // iff not confirmed before.
    ensures (Unthrottled(channels, lastChecks, tgId, now) && tgId in users && Eligible(users[tgId].status)
             && ScanChannels(channels, tgId, lookup).AllMembers?) ==>
      r.Returned? && r.result == CheckResult(false, true, Some(true), users[tgId].status != Confirmed, None)
    // Only users in a verified state are looked up, and a verified user
    // gets an eligible answer unless a lookup raised.
    ensures r.Returned? && r.result.eligible <==>
      && Unthrottled(channels, lastChecks, tgId, now)
      && tgId in users && Eligible(users[tgId].status)
      && !Crashes(ScanChannels(channels, tgId, lookup))
    // Membership holds iff every channel reports a membership.
    ensures r.Returned? && r.result.isMember == Some(true) <==>
      && Unthrottled(channels, lastChecks, tgId, now)
      && tgId in users && Eligible(users[tgId].status)
      && forall i :: 0 <= i < |channels| ==> IsMembership(lookup(channels[i], tgId))
    // A rejected lookup is reported and changes no status.
    ensures r.Returned? && r.result.eligible && r.result.isMember.None? ==>
      r.result.errorMessage == Some(CannotCheckMessage) && r.users == users
    ensures var scan := ScanChannels(channels, tgId, lookup);
      (Unthrottled(channels, lastChecks, tgId, now) && tgId in users && Eligible(users[tgId].status)
       && scan.StoppedAt? && scan.lookup == Rejected) ==>
      r == Returned(CheckResult(false, true, None, false, Some(CannotCheckMessage)), users, lastChecks[tgId := now])
    // A channel the user is not in answers "not a member", with no message
    // and no status change.
    ensures var scan := ScanChannels(channels, tgId, lookup);
      (Unthrottled(channels, lastChecks, tgId, now) && tgId in users && Eligible(users[tgId].status)
       && scan.StoppedAt? && scan.lookup.Found?) ==>
      r == Returned(CheckResult(false, true, Some(false), false, None), users, lastChecks[tgId := now])
    ensures r.Raised? <==>
      && Unthrottled(channels, lastChecks, tgId, now)
      && tgId in users && Eligible(users[tgId].status)
      && Crashes(ScanChannels(channels, tgId, lookup))
    // Confirmation happens exactly for a member that was not yet CONFIRMED.
    ensures r.Returned? && r.result.confirmedNow <==>
      r.Returned? && r.result.isMember == Some(true) && users[tgId].status != Confirmed
    ensures r.Returned? && r.result.isMember == Some(true) ==> r.users[tgId].status == Confirmed
    ensures r.Returned? && !r.result.confirmedNow && tgId in users ==> r.users[tgId] == users[tgId]
    ensures ValidStore(users) && r.Returned? ==> ValidStore(r.users)
  {
    if |channels| == 0 then
      Returned(CheckResult(false, false, None, false, Some(UnavailableMessage)), users, lastChecks)
    else if now - LastCheckOf(lastChecks, tgId) < RateLimitSeconds then
      Returned(CheckResult(true, false, None, false, None), users, lastChecks)
    else
      var recorded := lastChecks[tgId := now];
      var ensured := if tgId in users then users else Create(users, tgId, username, StatusNone);
      var status := ensured[tgId].status;
      if !Eligible(status) then
        Returned(CheckResult(false, false, None, false, None), ensured, recorded)
      else match ScanChannels(channels, tgId, lookup)
        case StoppedAt(_, Crashed) => Raised(users, recorded)
        case StoppedAt(_, Rejected) =>
          Returned(CheckResult(false, true, None, false, Some(CannotCheckMessage)), ensured, recorded)
        case StoppedAt(_, Found(_)) =>
          Returned(CheckResult(false, true, Some(false), false, None), ensured, recorded)
        case AllMembers =>
          if status != Confirmed then
            Returned(CheckResult(false, true, Some(true), true, None), SetStatus(ensured, tgId, Confirmed), recorded)
          else
            Returned(CheckResult(false, true, Some(true), false, None), ensured, recorded)
  }

  /** A check that got past the gate blocks every check of the same user in
      the next three seconds, whatever it answered or raised. */
  lemma RateGateAfterCheck(
    channels: seq<int>, users: UserStore, lastChecks: LastChecks, tgId: int, username: Option<string>,
    now: real, lookup: MemberOracle, users2: UserStore, later: real, username2: Option<string>, lookup2: MemberOracle)
    requires Unthrottled(channels, lastChecks, tgId, now)
    requires now <= later < now + RateLimitSeconds
    ensures var first := CheckSubscription(channels, users, lastChecks, tgId, username, now, lookup);
      var second := CheckSubscription(channels, users2, first.lastChecks, tgId, username2, later, lookup2);
      second.Returned? && second.result.rateLimited && second.users == users2 && second.lastChecks == first.lastChecks
  {
    var first := CheckSubscription(channels, users, lastChecks, tgId, username, now, lookup);
    assert LastCheckOf(first.lastChecks, tgId) == now;
  }

  /** Once confirmed, a user is never confirmed again: a later check answers
      `confirmed_now = False`. */
  lemma ConfirmOnce(
    channels: seq<int>, users: UserStore, lastChecks: LastChecks, tgId: int, username: Option<string>,
    now: real, lookup: MemberOracle, later: real, lookup2: MemberOracle)
    ensures var first := CheckSubscription(channels, users, lastChecks, tgId, username, now, lookup);
      first.Returned? && first.result.confirmedNow ==>
        var second := CheckSubscription(channels, first.users, first.lastChecks, tgId, username, later, lookup2);
        !(second.Returned? && second.result.confirmedNow)
  {
  }

  /** A user who is not in a verified state costs no channel lookup: the
      outcome does not depend on the oracle. */
  lemma IneligibleNeedsNoLookup(
    channels: seq<int>, users: UserStore, lastChecks: LastChecks, tgId: int, username: Option<string>,
    now: real, lookup: MemberOracle, lookup2: MemberOracle)
    requires !(tgId in users && Eligible(users[tgId].status))
    ensures CheckSubscription(channels, users, lastChecks, tgId, username, now, lookup)
         == CheckSubscription(channels, users, lastChecks, tgId, username, now, lookup2)
    ensures var r := CheckSubscription(channels, users, lastChecks, tgId, username, now, lookup);
      r.Returned? && !r.result.eligible && r.result.isMember.None? && !r.result.confirmedNow
  {
  }

  /** A lookup error at any channel, after memberships in all the channels
      before it, ends the check as eligible with the error message, no
      membership answer and no status change, whatever later channels say. */
  lemma RejectedLookupReported(
    channels: seq<int>, users: UserStore, lastChecks: LastChecks, tgId: int, username: Option<string>,
    now: real, lookup: MemberOracle, k: nat)
    requires Unthrottled(channels, lastChecks, tgId, now)
    requires tgId in users && Eligible(users[tgId].status)
    requires k < |channels| && lookup(channels[k], tgId) == Rejected
    requires forall j :: 0 <= j < k ==> IsMembership(lookup(channels[j], tgId))
    ensures CheckSubscription(channels, users, lastChecks, tgId, username, now, lookup)
         == Returned(CheckResult(false, true, None, false, Some(CannotCheckMessage)), users, lastChecks[tgId := now])
  {
    ScanStopsAt(channels, tgId, lookup, k);
  }

  /** A user who is not in a channel, after memberships in all the channels
      before it, is answered "not a member" and keeps their status. */
  lemma NonMemberReported(
    channels: seq<int>, users: UserStore, lastChecks: LastChecks, tgId: int, username: Option<string>,
    now: real, lookup: MemberOracle, k: nat)
    requires Unthrottled(channels, lastChecks, tgId, now)
    requires tgId in users && Eligible(users[tgId].status)
    requires k < |channels| && lookup(channels[k], tgId).Found? && !IsMembership(lookup(channels[k], tgId))
    requires forall j :: 0 <= j < k ==> IsMembership(lookup(channels[j], tgId))
    ensures CheckSubscription(channels, users, lastChecks, tgId, username, now, lookup)
         == Returned(CheckResult(false, true, Some(false), false, None), users, lastChecks[tgId := now])
  {
    ScanStopsAt(channels, tgId, lookup, k);
  }

  /** The loop stops at the first channel that is not a membership. */
  lemma {:induction false} ScanStopsAt(channels: seq<int>, tgId: int, lookup: MemberOracle, k: nat)
    requires k < |channels| && !IsMembership(lookup(channels[k], tgId))
    requires forall j :: 0 <= j < k ==> IsMembership(lookup(channels[j], tgId))
    ensures ScanChannels(channels, tgId, lookup) == StoppedAt(k, lookup(channels[k], tgId))
    decreases k
  {
    if k > 0 {
      assert IsMembership(lookup(channels[0], tgId));
      ScanStopsAt(channels[1..], tgId, lookup, k - 1);
    }
  }

  /** Two channels, the user left the second: not a member, both channels
      were asked, and the status stays TOKEN_VERIFIED. */
  lemma LeftSecondChannel(users: UserStore, tgId: int, now: real)
    requires tgId in users && users[tgId].status == TokenVerified
    requires now >= RateLimitSeconds
    ensures var lookup := (c: int, u: int) => if c == 20 then Found(Left) else Found(Member);
      var r := CheckSubscription([10, 20], users, map[], tgId, None, now, lookup);
      && r == Returned(CheckResult(false, true, Some(false), false, None), users, map[tgId := now])
      && LookupsMade([10, 20], tgId, lookup) == 2
  {
    var lookup := (c: int, u: int) => if c == 20 then Found(Left) else Found(Member);
    assert ScanChannels([10, 20][1..], tgId, lookup) == StoppedAt(0, Found(Left));
  }
}

=== FILE: text.dfy ===
/** String helpers with Python semantics: `str.isspace`, `str.strip`,
    `str.split(sep)`, `sep.join(pieces)`, `str(n)` and a decimal `int(s)`. */
module Text {
  import opened Wrappers

  /** Python's `str.isspace` for one character. */
  predicate IsSpace(c: char) {
    || c == ' ' || c == '\t' || c == '\n' || c == '\r'
    || c == '\U{000B}' || c == '\U{000C}'
    || ('\U{001C}' <= c <= '\U{001F}')
    || c == '\U{0085}' || c == '\U{00A0}' || c == '\U{1680}'
    || ('\U{2000}' <= c <= '\U{200A}')
    || c == '\U{2028}' || c == '\U{2029}' || c == '\U{202F}' || c == '\U{205F}' || c == '\U{3000}'
  }

  /** Every character is whitespace: what Python's `not s.strip()` tests. */
  predicate IsBlank(s: string) {
    forall i :: 0 <= i < |s| ==> IsSpace(s[i])
  }

  /** No whitespace at either end. */
  predicate Trimmed(s: string) {
    |s| > 0 ==> !IsSpace(s[0]) && !IsSpace(s[|s| - 1])
  }

  /** `s.lstrip()`: the longest suffix of `s` that does not start with whitespace. */
  function LStrip(s: string): (r: string)
    ensures |r| <= |s| && r == s[|s| - |r|..]
    ensures IsBlank(s[..|s| - |r|])
    ensures |r| > 0 ==> !IsSpace(r[0])
  {
    if |s| > 0 && IsSpace(s[0]) then LStrip(s[1..]) else s
  }

  /** `s.rstrip()`: the longest prefix of `s` that does not end with whitespace. */
  function RStrip(s: string): (r: string)
    ensures |r| <= |s| && r == s[..|r|]
    ensures IsBlank(s[|r|..])
    ensures |r| > 0 ==> !IsSpace(r[|r| - 1])
  {
    if |s| > 0 && IsSpace(s[|s| - 1]) then RStrip(s[..|s| - 1]) else s
  }

  /** `s.strip()`. */
  function Strip(s: string): (r: string)
    ensures Trimmed(r)
    ensures |r| == 0 <==> IsBlank(s)
  {
    var l := LStrip(s);
    var r := RStrip(l);
    if |r| == 0 then
      assert |l| == 0;
      assert s[..|s|] == s;
      r
    else
      assert !IsSpace(r[0]) && r[0] == s[|s| - |l|];
      r
  }

  /** Stripping a string that has no whitespace at its ends changes nothing. */
  lemma StripTrimmed(s: string)
    requires Trimmed(s)
    ensures Strip(s) == s
  {
  }

  /** `strip` is idempotent. */
  lemma StripIdempotent(s: string)
    ensures Strip(Strip(s)) == Strip(s)
  {
    StripTrimmed(Strip(s));
  }

  /** `s.split(sep)` for a one-character separator: the pieces between the
      separators, always at least one. */
  function Split(s: string, sep: char): (r: seq<string>)
    ensures |r| >= 1
    ensures forall i :: 0 <= i < |r| ==> sep !in r[i]
    ensures sep !in s ==> r == [s]
  {
    if |s| == 0 then [""]
    else
      var rest := Split(s[1..], sep);
      assert s == [s[0]] + s[1..];
      if s[0] == sep then [""] + rest
      else [[s[0]] + rest[0]] + rest[1..]
  }

  /** A non-whitespace character lies after a blank prefix. */
  lemma BlankBefore(s: string, a: nat, m: nat)
    requires a <= |s| && IsBlank(s[..a]) && m < |s| && !IsSpace(s[m])
    ensures a <= m
  {
    assert forall i :: 0 <= i < a ==> IsSpace(s[..a][i]) && s[..a][i] == s[i];
  }

  /** A non-whitespace character lies before a blank suffix. */
  lemma BlankFrom(s: string, a: nat, m: nat)
    requires a <= |s| && IsBlank(s[a..]) && m < |s| && !IsSpace(s[m])
    ensures m < a
  {
    assert forall i :: a <= i < |s| ==> IsSpace(s[a..][i - a]) && s[a..][i - a] == s[i];
  }

  /** A non-whitespace character survives `lstrip`, shifted by what it drops. */
  lemma LStripKeeps(s: string, m: nat)
    requires m < |s| && !IsSpace(s[m])
    ensures |s| - |LStrip(s)| <= m && LStrip(s)[m - (|s| - |LStrip(s)|)] == s[m]
  {
    BlankBefore(s, |s| - |LStrip(s)|, m);
  }

  /** A non-whitespace character survives `rstrip` in place. */
  lemma RStripKeeps(s: string, m: nat)
    requires m < |s| && !IsSpace(s[m])
    ensures m < |RStrip(s)| && RStrip(s)[m] == s[m]
  {
    BlankFrom(s, |RStrip(s)|, m);
  }

  /** A non-whitespace character survives `strip`, in place: it stands in
      the result shifted by the leading whitespace removed. */
  lemma StripKeeps(s: string, m: nat)
    requires m < |s| && !IsSpace(s[m])
    ensures var a := |s| - |LStrip(s)|; a <= m < a + |Strip(s)| && Strip(s)[m - a] == s[m]
    ensures s[m] in Strip(s)
  {
    var l := LStrip(s);
    var k := m - (|s| - |l|);
    LStripKeeps(s, m);
    RStripKeeps(l, k);
    assert Strip(s) == RStrip(l);
  }

  /** `r` is `s` with a blank prefix of length `a` and a blank suffix cut off. */
  predicate Middle(s: string, a: nat, r: string) {
    && a + |r| <= |s|
    && r == s[a..a + |r|]
    && IsBlank(s[..a])
    && IsBlank(s[a + |r|..])
  }

  /** `strip` removes only whitespace at the two ends: the result is the
      middle of the input, after the blank prefix that `lstrip` drops. */
  lemma StripMiddle(s: string)
    ensures Middle(s, |s| - |LStrip(s)|, Strip(s))
  {
    var l := LStrip(s);
    var r := RStrip(l);
    PrefixOfSuffix(s, l, r);
    StripIsBothStrips(s);
  }

  lemma StripIsBothStrips(s: string)
    ensures Strip(s) == RStrip(LStrip(s))
  {
  }

  /** A prefix `r` of a suffix `l` of `s`, both with blank remainders, is a
      middle of `s`. */
  lemma PrefixOfSuffix(s: string, l: string, r: string)
    requires |l| <= |s| && l == s[|s| - |l|..] && IsBlank(s[..|s| - |l|])
    requires |r| <= |l| && r == l[..|r|] && IsBlank(l[|r|..])
    ensures Middle(s, |s| - |l|, r)
  {
    var a := |s| - |l|;
    assert s[a..][..|r|] == s[a..a + |r|];
    assert s[a..][|r|..] == s[a + |r|..];
  }

  /** `sep.join(pieces)`. */
  function Join(pieces: seq<string>, sep: char): string
  {
    if |pieces| == 0 then ""
    else if |pieces| == 1 then pieces[0]
    else pieces[0] + [sep] + Join(pieces[1..], sep)
  }

  /** Joining separator-free pieces adds exactly one separator fewer than
      there are pieces. */
  lemma {:induction false} JoinSeparators(pieces: seq<string>, sep: char)
    requires |pieces| >= 1
    requires forall i :: 0 <= i < |pieces| ==> sep !in pieces[i]
    ensures multiset(Join(pieces, sep))[sep] == |pieces| - 1
    decreases |pieces|
  {
    if |pieces| > 1 {
      JoinSeparators(pieces[1..], sep);
      assert sep !in multiset(pieces[0]);
      assert multiset(Join(pieces, sep)) == multiset(pieces[0]) + multiset([sep]) + multiset(Join(pieces[1..], sep));
    } else {
      assert sep !in multiset(pieces[0]);
    }
  }

  /** Joining the pieces of a split gives back the original string. */
  lemma {:induction false} JoinSplit(s: string, sep: char)
    ensures Join(Split(s, sep), sep) == s
    decreases |s|
  {
    if |s| > 0 {
      JoinSplit(s[1..], sep);
      if s[0] == sep {
        JoinSplitSepFirst(s, sep);
      } else {
        JoinSplitCharFirst(s, sep);
      }
    }
  }

  /** The step of `JoinSplit` for a string that starts with the separator. */
  lemma JoinSplitSepFirst(s: string, sep: char)
    requires |s| >= 1 && s[0] == sep && Join(Split(s[1..], sep), sep) == s[1..]
    ensures Join(Split(s, sep), sep) == s
  {
    var rest := Split(s[1..], sep);
    assert Split(s, sep) == [""] + rest;
    assert s == [sep] + s[1..];
  }

  /** The step of `JoinSplit` for a string that starts with another character. */
  lemma JoinSplitCharFirst(s: string, sep: char)
    requires |s| >= 1 && s[0] != sep && Join(Split(s[1..], sep), sep) == s[1..]
    ensures Join(Split(s, sep), sep) == s
  {
    var rest := Split(s[1..], sep);
    var pieces := Split(s, sep);
    SplitNonSepFirst(s, sep);
    JoinDropFirst(pieces, sep);
    assert [pieces[0][1..]] + pieces[1..] == rest;
    assert s == [s[0]] + s[1..];
  }

  /** Dropping the first character of the first piece of a join drops the
      first character of the joined string. */
  lemma JoinDropFirst(pieces: seq<string>, sep: char)
    requires |pieces| >= 1 && |pieces[0]| >= 1
    ensures Join(pieces, sep) == [pieces[0][0]] + Join([pieces[0][1..]] + pieces[1..], sep)
  {
    var p := pieces[0];
    var tail := [p[1..]] + pieces[1..];
    assert tail[1..] == pieces[1..];
    assert p == [p[0]] + p[1..];
    if |pieces| > 1 {
      assert Join(tail, sep) == p[1..] + [sep] + Join(pieces[1..], sep);
    }
  }

  lemma NoSepAfterDropFirst(pieces: seq<string>, sep: char)
    requires |pieces| >= 1 && |pieces[0]| >= 1
    requires forall i :: 0 <= i < |pieces| ==> sep !in pieces[i]
    ensures forall i :: 0 <= i < |pieces| ==> sep !in ([pieces[0][1..]] + pieces[1..])[i]
  {
    var tail := [pieces[0][1..]] + pieces[1..];
    forall i | 0 <= i < |tail| ensures sep !in tail[i] {
      if i == 0 {
        assert forall c :: c in pieces[0][1..] ==> c in pieces[0];
      } else {
        assert tail[i] == pieces[i];
      }
    }
  }

  /** One step of `Split` on a string that starts with a non-separator. */
  lemma SplitNonSepFirst(s: string, sep: char)
    requires |s| >= 1 && s[0] != sep
    ensures Split(s, sep) == [[s[0]] + Split(s[1..], sep)[0]] + Split(s[1..], sep)[1..]
  {
  }

  /** An empty first piece puts a separator at the front of the join. */
  lemma SplitJoinEmptyFirst(pieces: seq<string>, sep: char)
    requires |pieces| >= 2 && pieces[0] == ""
    requires Split(Join(pieces[1..], sep), sep) == pieces[1..]
    ensures Split(Join(pieces, sep), sep) == pieces
  {
    var s := Join(pieces, sep);
    assert s == [sep] + Join(pieces[1..], sep);
    assert s[1..] == Join(pieces[1..], sep);
    assert pieces == [""] + pieces[1..];
  }

  /** Splitting a string that starts with a non-separator `c`: `c` joins
      the first piece of the rest's split. */
  lemma SplitCons(s: string, c: char, t: string, sep: char, tail: seq<string>)
    requires s == [c] + t && c != sep && Split(t, sep) == tail
    ensures Split(s, sep) == [[c] + tail[0]] + tail[1..]
  {
    assert s[0] == c && s[1..] == t;
    SplitNonSepFirst(s, sep);
  }

  /** A first piece starting with a non-separator puts that character at
      the front of the join and of the first piece of its split. */
  lemma SplitJoinCharFirst(pieces: seq<string>, sep: char)
    requires |pieces| >= 1 && |pieces[0]| >= 1 && pieces[0][0] != sep
    requires Split(Join([pieces[0][1..]] + pieces[1..], sep), sep) == [pieces[0][1..]] + pieces[1..]
    ensures Split(Join(pieces, sep), sep) == pieces
  {
    var p := pieces[0];
    var tail := [p[1..]] + pieces[1..];
    JoinDropFirst(pieces, sep);
    SplitCons(Join(pieces, sep), p[0], Join(tail, sep), sep, tail);
    assert tail[0] == p[1..] && tail[1..] == pieces[1..];
    assert [p[0]] + p[1..] == p;
    assert pieces == [p] + pieces[1..];
  }

  /** Splitting a join of separator-free pieces gives back the pieces. */
  lemma {:induction false} SplitJoin(pieces: seq<string>, sep: char)
    requires |pieces| >= 1
    requires forall i :: 0 <= i < |pieces| ==> sep !in pieces[i]
    ensures Split(Join(pieces, sep), sep) == pieces
    decreases |pieces|, |pieces[0]|
  {
    var p := pieces[0];
    if |pieces| == 1 {
    } else if |p| == 0 {
      SplitJoin(pieces[1..], sep);
      SplitJoinEmptyFirst(pieces, sep);
    } else {
      NoSepAfterDropFirst(pieces, sep);
      SplitJoin([p[1..]] + pieces[1..], sep);
      assert p[0] in p;
      SplitJoinCharFirst(pieces, sep);
    }
  }

  predicate IsDigit(c: char) {
    '0' <= c <= '9'
  }

  predicate AllDigits(s: string) {
    forall i :: 0 <= i < |s| ==> IsDigit(s[i])
  }

  function DigitChar(d: nat): (c: char)
    requires d < 10
    ensures IsDigit(c)
  {
    (('0' as int) + d) as char
  }

  function DigitValue(c: char): (d: nat)
    requires IsDigit(c)
    ensures d < 10
  {
    (c as int) - ('0' as int)
  }

  /** Python's `str(n)` for a natural number: its decimal digits, no leading zero. */
  function NatToDecimal(n: nat): (s: string)
    ensures |s| >= 1 && AllDigits(s)
    ensures s[0] == '0' <==> n == 0
    ensures |s| > 1 ==> s[0] != '0'
  {
    if n < 10 then [DigitChar(n)] else NatToDecimal(n / 10) + [DigitChar(n % 10)]
  }

  /** Python's `str(n)` for an integer. */
  function IntToDecimal(n: int): (s: string)
    ensures |s| >= 1
    ensures n >= 0 <==> s[0] != '-'
    ensures forall i :: 0 <= i < |s| ==> s[i] != ',' && !IsSpace(s[i]) && s[i] != '\n'
    // the canonical form: no plus sign and no leading zero
    ensures n >= 0 ==> AllDigits(s) && (s[0] == '0' <==> n == 0) && (|s| > 1 ==> s[0] != '0')
    ensures n < 0 ==> |s| >= 2 && s[0] == '-' && AllDigits(s[1..]) && s[1] != '0'
  {
    if n >= 0 then NatToDecimal(n)
    else
      assert ("-" + NatToDecimal(-n))[1..] == NatToDecimal(-n);
      "-" + NatToDecimal(-n)
  }

  /** The value of a run of decimal digits, most significant first. */
  function DigitsValue(s: string): nat
    requires AllDigits(s)
  {
    if |s| == 0 then 0 else DigitsValue(s[..|s| - 1]) * 10 + DigitValue(s[|s| - 1])
  }

  /** A decimal `int(s)`: an optional sign followed by at least one digit;
      anything else is a parse failure (Python raises ValueError). */
  function ParseInt(s: string): Option<int>
  {
    if |s| >= 1 && (s[0] == '-' || s[0] == '+') then
      var digits := s[1..];
      if |digits| >= 1 && AllDigits(digits) then
        var v: int := DigitsValue(digits);
        Some(if s[0] == '-' then -v else v)
      else None
    else if |s| >= 1 && AllDigits(s) then Some(DigitsValue(s))
    else None
  }

  /** `ParseInt` succeeds exactly on an optional sign followed by at least
      one ASCII digit. */
  lemma ParseIntShape(s: string)
    ensures ParseInt(s).Some? <==>
      || (|s| >= 1 && AllDigits(s))
      || (|s| >= 2 && (s[0] == '-' || s[0] == '+') && AllDigits(s[1..]))
  {
  }

  /** An ASCII character that Python's `int()` accepts nowhere in a decimal
      literal: not whitespace, not a digit, not a sign and not the `_` digit
      separator. (Non-ASCII characters are excluded because `int()` also
      reads Unicode digits.) */
  predicate NonNumeric(c: char) {
    c as int < 128 && !IsSpace(c) && !IsDigit(c) && c != '-' && c != '+' && c != '_'
  }

  /** A string holding a non-numeric character does not parse, in the model
      and in Python alike. */
  lemma ParseRejects(t: string, c: char)
    requires c in t && NonNumeric(c)
    ensures ParseInt(t).None?
  {
    var i :| 0 <= i < |t| && t[i] == c;
    assert i == 0 || t[1..][i - 1] == c;
  }

  lemma {:induction false} DigitsOfDecimal(n: nat)
    ensures DigitsValue(NatToDecimal(n)) == n
  {
    if n >= 10 {
      var s := NatToDecimal(n);
      assert s[..|s| - 1] == NatToDecimal(n / 10);
      DigitsOfDecimal(n / 10);
    }
  }

  /** A run of digits parses as its value. */
  lemma ParseDigits(s: string)
    requires |s| >= 1 && AllDigits(s)
    ensures ParseInt(s) == Some(DigitsValue(s))
  {
    assert IsDigit(s[0]);
  }

  /** A minus sign followed by a run of digits parses as the negated value. */
  lemma ParseNegatedDigits(s: string, digits: string)
    requires |digits| >= 1 && AllDigits(digits) && s == "-" + digits
    ensures ParseInt(s) == Some(-(DigitsValue(digits) as int))
  {
    assert s[0] == '-' && s[1..] == digits;
  }

  /** `int(str(n)) == n`. */
  lemma ParseIntOfDecimal(n: int)
    ensures ParseInt(IntToDecimal(n)) == Some(n)
  {
    if n >= 0 {
      DigitsOfDecimal(n);
      ParseDigits(NatToDecimal(n));
    } else {
      DigitsOfDecimal(-n);
      ParseNegatedDigits(IntToDecimal(n), NatToDecimal(-n));
    }
  }
}

=== FILE: token_verifier.dfy ===
/** The start-token check (`bot/services/token_verifier.py`). Only the stub
    implementation exists: it accepts "TEST" and anything starting "TEST_". */
module TokenVerifier {

  /** `StubTokenVerifier.is_valid`. */
  function StubIsValid(token: string): (r: bool)
    ensures token == "TEST" ==> r
    ensures "TEST_" <= token ==> r
    ensures r ==> "TEST" <= token
    ensures r && |token| > 4 ==> token[4] == '_'
  {
    token == "TEST" || "TEST_" <= token
  }

  /** `get_token_verifier`: the verifier the bot is wired with. */
  function GetTokenVerifier(): (v: string -> bool)
    ensures forall t :: v(t) == ("TEST" <= t && (|t| == 4 || t[4] == '_'))
  {
    StubIsValid
  }

  /** Lower case, a bare "TESTX" and the empty token are all rejected. */
  lemma StubRejects()
    ensures !StubIsValid("") && !StubIsValid("TESTX") && !StubIsValid("test") && !StubIsValid("TES")
    ensures StubIsValid("TEST") && StubIsValid("TEST_42")
  {
    assert "TESTX"[4] != '_';
    assert "TEST_42"[..5] == "TEST_";
  }
}

=== FILE: user_repository.dfy ===
/** The user table (`bot/storage/user_repository.py`) as a map keyed by
    Telegram id. Each setter writes one field of one user. */
module UserRepository {
  import opened Wrappers
  import opened Models

  type UserStore = map<int, User>

  /** Every user is stored under its own Telegram id. */
  predicate ValidStore(users: UserStore) {
    forall k :: k in users ==> users[k].tgId == k
  }

  /** `get_by_tg_id`. */
  function GetByTgId(users: UserStore, tgId: int): (r: Option<User>)
    ensures r.Some? <==> tgId in users
    ensures r.Some? ==> r.value == users[tgId]
  {
    if tgId in users then Some(users[tgId]) else None
  }

  /** `create`: a new user with exactly the given id, username and status and
      no page being edited. The id column is unique, so the id must be new. */
  function Create(users: UserStore, tgId: int, username: Option<string>, status: RegistrationStatus): (r: UserStore)
    requires tgId !in users
    ensures ValidStore(users) ==> ValidStore(r)
    ensures r.Keys == users.Keys + {tgId}
    ensures GetByTgId(r, tgId) == Some(User(tgId, username, status, None))
    ensures forall k :: k in users ==> r[k] == users[k]
  {
    users[tgId := User(tgId, username, status, None)]
  }

  /** `update_username`: only the username of that user changes. */
  function UpdateUsername(users: UserStore, tgId: int, username: Option<string>): (r: UserStore)
    requires tgId in users
    ensures ValidStore(users) ==> ValidStore(r)
    ensures r.Keys == users.Keys
    ensures r[tgId].username == username
    ensures r[tgId].(username := users[tgId].username) == users[tgId]
    ensures forall k :: k in users && k != tgId ==> r[k] == users[k]
    ensures users[tgId].username == username ==> r == users
  {
    if users[tgId].username != username then users[tgId := users[tgId].(username := username)] else users
  }

  /** `set_status`: only the status of that user changes. */
  function SetStatus(users: UserStore, tgId: int, status: RegistrationStatus): (r: UserStore)
    requires tgId in users
    ensures ValidStore(users) ==> ValidStore(r)
    ensures r.Keys == users.Keys
    ensures r[tgId].status == status
    ensures r[tgId].(status := users[tgId].status) == users[tgId]
    ensures forall k :: k in users && k != tgId ==> r[k] == users[k]
    ensures users[tgId].status == status ==> r == users
  {
    if users[tgId].status != status then users[tgId := users[tgId].(status := status)] else users
  }

  /** `set_editing_page_key`: only the page being edited changes. */
  function SetEditingPageKey(users: UserStore, tgId: int, key: Option<string>): (r: UserStore)
    requires tgId in users
    ensures ValidStore(users) ==> ValidStore(r)
    ensures r.Keys == users.Keys
    ensures r[tgId].editingPageKey == key
    ensures r[tgId].(editingPageKey := users[tgId].editingPageKey) == users[tgId]
    ensures forall k :: k in users && k != tgId ==> r[k] == users[k]
  {
    if users[tgId].editingPageKey != key then users[tgId := users[tgId].(editingPageKey := key)] else users
  }

  /** Setting a status twice is setting it once. */
  lemma SetStatusIdempotent(users: UserStore, tgId: int, status: RegistrationStatus)
    requires tgId in users
    ensures SetStatus(SetStatus(users, tgId, status), tgId, status) == SetStatus(users, tgId, status)
  {
  }
}

=== FILE: wrappers.dfy ===
/** Failure-compatible wrappers shared by every module: `Option` stands for a
    Python value that may be `None`, `Result` for a call that may raise. */
module Wrappers {

  datatype Option<+T> = None | Some(value: T) {

    /** The value, or `default` when absent (Python's `x or default` on a
        value that is never falsy when present). */
    function GetOr(default: T): T {
      match this
      case Some(v) => v
      case None => default
    }
  }

  datatype Result<+R, +E> = Success(value: R) | Failure(error: E) {

    predicate IsFailure() {
      Failure?
    }

    function PropagateFailure<U>(): Result<U, E>
      requires Failure?
    {
      Failure(error)
    }

    function Extract(): R
      requires Success?
    {
      value
    }
  }
}
